=== FILE: README.md ===
# Onix Labs dashboard: update rules and state machines in Dafny

The Onix Labs site is a React marketing dashboard. Its state logic is small
and lives inside components:

- a fusion-reactor simulator (the HYPERION sector) with a physics tick and a render loop;
- a photonic logic gate (SENTINEL);
- an entropy-torus visualisation;
- two canvas cinematics: a flow field of light motes (SENTINEL) and a Lorenz attractor (KERNEL);
- a hero section that cycles through the three sectors;
- an overlay with a random counter;
- a typewriter line on the landing page;
- a chat terminal with a submit guard;
- a footer handshake form with an IDLE/SECURED status.

This project lifts each of these out as immutable records and pure step
functions, and proves what the components promise about them.

Conventions used throughout:

- Doubles are `real`. `Math.PI` is the rational literal 3.141592653589793.
- Every `Math.random()` draw is a value of type `Js.Unit` (a real in [0, 1)), or a stream `nat -> Unit` consumed in call order.
- Cosine, sine and square root are function parameters. Facts about them appear only as hypotheses of the lemmas that need them.
- Timer and animation-frame callbacks are explicit step functions. A sequence of frames is a recursive `Run`.

Modules, one per component:

- `Js`: the runtime pieces used (`Unit`, the range-input value `Slider`, `Pi`, `Max`, `Min`, `Abs`, and `String.prototype.trim` with the ECMAScript white-space set).
- `Types`: the shared records of `types.ts`.
- `Hyperion`: the reactor simulator.
- `Interferometer`: the logic gate.
- `TorusViz`: the entropy torus.
- `FlowField`: the sentinel cinematic.
- `Lorenz`: the kernel cinematic.
- `Hero`: the hero section.
- `Monolith`: the hero overlay.
- `Typewriter`: the landing page line.
- `Terminal`: the chat terminal.
- `Footer`: the footer form.

Three details of the reactor tick (HyperionView.tsx) are easy to misread, and the model follows the code in each:

- The '/ 15.0' label (line 204) and the '15 = 0 chaos' comment (line 74) suggest a stability ceiling of 15. Line 36 clamps stability only at 0, so a tick can read up to just under 15.1 (`Hyperion.StabilityCanExceedCeiling`).
- Line 39 does not clamp the containment field at all, so it can read -0.0025 (`Hyperion.ContainmentCanBeNegative`).
- One `Math.random()` draw per tick (line 29) scales all four metrics, so `Hyperion.Tick` takes a single draw.

## Model

| member | source | states |
|---|---|---|
| Hyperion.Efficiency | onix-labs-sovereign-dashboard/components/HyperionView.tsx:23-27 | Efficiency lies in [0, 1]. It is 1 exactly at field 85 and injection 60, and positive exactly when the total detuning is below 40. Where positive it equals 1 - 0.025 times the detuning. |
| Hyperion.EfficiencyMonotone | onix-labs-sovereign-dashboard/components/HyperionView.tsx:25-27 | Moving either slider closer to its optimum never lowers efficiency. |
| Hyperion.Tick | onix-labs-sovereign-dashboard/components/HyperionView.tsx:22-40 | For every draw: stability is non-negative, within 0.1 of 15 times efficiency, and below 15.1. Output is non-negative and within 0.025 of 2.5 times efficiency. Temperature is an integer in [295, 1104], within the jitter bound of 300 + 800 times efficiency. Containment is within 0.0025 of 0.92 times efficiency and lies in [-0.0025, 0.9225). |
| Hyperion.TickIgnoresPrevious | onix-labs-sovereign-dashboard/components/HyperionView.tsx:22-40 | The tick's result does not depend on the previous metrics. |
| Hyperion.ContainmentCanBeNegative | onix-labs-sovereign-dashboard/components/HyperionView.tsx:33-39 | With the sliders detuned by 40 or more, the containment field is negative exactly for draws below one half, and -0.0025 for the lowest draw, because the field is never clamped. |
| Hyperion.StabilityCanExceedCeiling | onix-labs-sovereign-dashboard/components/HyperionView.tsx:29-36 | At the optimum, stability exceeds 15 exactly for draws above one half. |
| Hyperion.Chaos | onix-labs-sovereign-dashboard/components/HyperionView.tsx:97-98 | For non-negative stability, chaos lies in [0, 1]. It is 0 exactly from stability 15 on, and 1 exactly at stability 0. |
| Hyperion.ChaosAntitone | onix-labs-sovereign-dashboard/components/HyperionView.tsx:97-98 | Higher stability never gives more chaos. |
| Hyperion.TimeStep | onix-labs-sovereign-dashboard/components/HyperionView.tsx:108 | The clock step lies in [0.02, 0.07]: 0.02 when calm, 0.07 when fully chaotic. |
| Hyperion.TimeStepMonotone | onix-labs-sovereign-dashboard/components/HyperionView.tsx:108 | More chaos never gives a smaller clock step, and strictly more chaos gives a strictly larger one. |
| Hyperion.RenderFrame | onix-labs-sovereign-dashboard/components/HyperionView.tsx:96-108 | One render frame advances the animation clock by the time step of the chaos derived from the metrics it reads. For non-negative stability that step lies between 0.02 and 0.07. |
| Hyperion.LessStableRunsFaster | onix-labs-sovereign-dashboard/components/HyperionView.tsx:97-108 | Of two metric readings, the less stable one never advances the animation clock by less. |
| Hyperion.GlowSize | onix-labs-sovereign-dashboard/components/HyperionView.tsx:155 | The glow radius lies in [20, 60] and equals 60 - 40 times chaos. |
| Hyperion.Glow | onix-labs-sovereign-dashboard/components/HyperionView.tsx:156 | The core glow is red exactly when chaos exceeds 0.5, and cyan otherwise. |
| Hyperion.Filament | onix-labs-sovereign-dashboard/components/HyperionView.tsx:119-121 | The filaments are cyan exactly for chaos at most 0.3, amber exactly for chaos in (0.3, 0.7], and red exactly above 0.7. |
| Hyperion.Badge | onix-labs-sovereign-dashboard/components/HyperionView.tsx:188-193 | The badge reads 'Topological Lock' exactly when its tone is green, i.e. when stability exceeds 14. The tone is amber exactly on (8, 14] and red exactly at or below 8. |
| Hyperion.OptimumLocks | onix-labs-sovereign-dashboard/components/HyperionView.tsx:22-40 | At (85, 60), every draw gives a green 'Topological Lock' badge, cyan filaments, a cyan glow and a pulsing power icon. The icon pulses for output above 2 MW (line 268). |
| Hyperion.DetunedIsChaotic | onix-labs-sovereign-dashboard/components/HyperionView.tsx:27-30 | At detuning 40 or more, every draw gives stability at most 0.1, chaos above 0.99, red filaments and a red 'Plasma Instability' badge. |
| Interferometer.PhaseRad | components/SentinelView.tsx:9-10 | The slider maps linearly onto [0, pi], with 0 to 0 and 100 to pi. |
| Interferometer.PhaseMonotone | components/SentinelView.tsx:10 | A larger slider value never gives a smaller phase. |
| Interferometer.Read | components/SentinelView.tsx:10-15 | The intensity is the square of cos(phase / 2), so it is never negative for any cosine. The logic bit is 0 or 1, and 1 exactly when the intensity exceeds 0.8. |
| Interferometer.IntensityAtMostOne | components/SentinelView.tsx:11-12 | For a cosine bounded by [-1, 1], the intensity is at most 1. |
| Interferometer.AlignedReadsOne | components/SentinelView.tsx:10-15 | Given cos 0 = 1, slider 0 reads intensity 1 and logic bit 1. |
| Interferometer.OppositeReadsZero | components/SentinelView.tsx:10-15 | Given a cosine within 0.1 of 0 at pi/2 (as `Math.cos(Math.PI / 2)`, about 6e-17, is), slider 100 reads intensity at most 0.01, logic bit 0 and an unlit detector. |
| Interferometer.Display | components/SentinelView.tsx:69-163 | The shifter node is highlighted exactly for slider values above 10. The detector is lit exactly when the intensity exceeds 0.1 (lines 92, 98) and has style opacity 0.3 plus the intensity (line 96). Throughput is 128 times the intensity (line 163), so the detector is lit exactly when the throughput exceeds 12.8. A logic 1 implies a lit detector and a throughput above 102.4. |
| Interferometer.LogicOneLightsDetector | components/SentinelView.tsx:92-98 | For every cosine, a logic 1 lights the detector. |
| TorusViz.NewParticle | onix-labs-sovereign-dashboard/components/TorusViz.tsx:39-46 | A new particle has angles in [0, 2 pi), drift rates in [-0.01, 0.01), radius 35 and jitter 0. |
| TorusViz.Spawn | onix-labs-sovereign-dashboard/components/TorusViz.tsx:33-50 | The initial array holds exactly 2000 such particles, with both rotations at 0. |
| TorusViz.SpinSpeed | onix-labs-sovereign-dashboard/components/TorusViz.tsx:61 | The spin speed is positive: 0.03 while the user is typing, 0.008 otherwise. |
| TorusViz.TargetJitter | onix-labs-sovereign-dashboard/components/TorusViz.tsx:62 | The jitter target is 0.8 while the user is typing, whatever the entropy, and 12 times the entropy otherwise. Non-negative entropy gives a non-negative target. |
| TorusViz.Smooth | onix-labs-sovereign-dashboard/components/TorusViz.tsx:78 | Each easing step gives new - target = 0.95 (old - target). The value never passes the target from either side. |
| TorusViz.SmoothNClosedForm | onix-labs-sovereign-dashboard/components/TorusViz.tsx:78 | After n steps, the distance to a fixed target is 0.95^n times the initial distance. |
| TorusViz.SmoothNRisesToTarget | onix-labs-sovereign-dashboard/components/TorusViz.tsx:78 | Starting at or below a fixed target, the value stays between the start and the target and never decreases. |
| TorusViz.Frame | onix-labs-sovereign-dashboard/components/TorusViz.tsx:61-78 | rotY gains the spin speed and rotX half of it, so rotY - 2 rotX is unchanged. The particle count is kept. Each particle drifts theta and phi by its own rates, keeps those rates and its radius, and eases its jitter toward the input-dependent target. |
| TorusViz.RunKeepsShape | onix-labs-sovereign-dashboard/components/TorusViz.tsx:49-65 | After any run of frames, there are 2000 particles and rotY is exactly twice rotX. |
| TorusViz.RunJitterTracksTarget | onix-labs-sovereign-dashboard/components/TorusViz.tsx:61-78 | Under a constant target, every particle's jitter after n frames is the n-fold easing of 0 toward that target. |
| TorusViz.RunJitterBounded | onix-labs-sovereign-dashboard/components/TorusViz.tsx:62-78 | Under a constant non-negative target, every particle's jitter stays in [0, target]. |
| TorusViz.PointSize | onix-labs-sovereign-dashboard/components/TorusViz.tsx:97 | Point size is at least 0.2, and either the floor or 1.8 times the scale. |
| TorusViz.PointAlpha | onix-labs-sovereign-dashboard/components/TorusViz.tsx:99 | Alpha is at least 0.05, and either the floor or (z + 60) / 120. |
| Lorenz.EulerStep | onix-labs-sovereign-dashboard/components/KernelCinematic.tsx:36-41 | Computing the increments from the pre-step coordinates and applying them together is exactly p + 0.01 times the Lorenz field at p (sigma 10, rho 28, beta 8/3). |
| Lorenz.OriginIsFixed | onix-labs-sovereign-dashboard/components/KernelCinematic.tsx:36-41 | The step leaves the origin in place. |
| Lorenz.Trajectory | onix-labs-sovereign-dashboard/components/KernelCinematic.tsx:35-43 | k steps push exactly k points, each with hue 2z + 180. |
| Lorenz.IterateAdd | onix-labs-sovereign-dashboard/components/KernelCinematic.tsx:35-41 | a steps followed by b steps are a + b steps. |
| Lorenz.TrajectoryAdd | onix-labs-sovereign-dashboard/components/KernelCinematic.tsx:35-43 | The points of a + b steps are those of the first a steps followed by those of the next b steps. |
| Lorenz.FrameSplices | onix-labs-sovereign-dashboard/components/KernelCinematic.tsx:35-47 | A frame appends five points, then removes exactly the five oldest if and only if the buffer exceeds 3000. Afterwards the buffer is non-empty, stays within 3000 if it was, and keeps every hue matched to its depth. |
| Lorenz.EvictKeepsRecent | onix-labs-sovereign-dashboard/components/KernelCinematic.tsx:45-47 | Suppose the buffer holds the last `kept` points and would reach the cap exactly. Then after a push and splice it holds the last min(kept + 5, 3000) points. |
| Lorenz.FramesClock | onix-labs-sovereign-dashboard/components/KernelCinematic.tsx:35-49 | After n frames the integrator has taken 5n steps and the rotation is 0.005 n. |
| Lorenz.WholeFramesKept | onix-labs-sovereign-dashboard/components/KernelCinematic.tsx:23-47 | The buffer grows by whole frames and reaches the cap of 3000 exactly. |
| Lorenz.FrameAppendsNewest | onix-labs-sovereign-dashboard/components/KernelCinematic.tsx:35-47 | Frame n pushes the five points generated from where frame n - 1 left the integrator. |
| Lorenz.FramesKeepRecentPoints | onix-labs-sovereign-dashboard/components/KernelCinematic.tsx:22-47 | After n frames the buffer is exactly the most recent min(5n, 3000) generated points, in generation order. |
| Lorenz.CinematicBuffer | onix-labs-sovereign-dashboard/components/KernelCinematic.tsx:16-49 | Starting from (0.1, 0, 0), after n frames the buffer holds min(5n, 3000) points and never more than 3000. They are the latest Euler points, each with hue 2z + 180, and the rotation is 0.005 n. |
| Lorenz.HeadIsNewest | onix-labs-sovereign-dashboard/components/KernelCinematic.tsx:85 | After at least one frame the buffer is non-empty, and the head lookup returns the newest generated point. |
| FlowField.NewMote | onix-labs-sovereign-dashboard/components/SentinelCinematic.tsx:19-26 | A new mote lies on the canvas, with velocity components in [-1, 1), size in [0, 2) and alpha in [0, 1). |
| FlowField.Spawn | onix-labs-sovereign-dashboard/components/SentinelCinematic.tsx:15-27 | The mote array holds exactly 1500 such motes, and the clock starts at 0. |
| FlowField.SpawnWithinBounds | onix-labs-sovereign-dashboard/components/SentinelCinematic.tsx:18-27 | Every spawned mote is on the canvas, with velocity within the bound the dynamics preserve. |
| FlowField.Wrap | onix-labs-sovereign-dashboard/components/SentinelCinematic.tsx:53-57 | For a non-negative extent the result lies in [0, extent]. Below 0 wraps to the extent; beyond the extent wraps to 0; a coordinate already on the canvas is unchanged. |
| FlowField.MoteStep | onix-labs-sovereign-dashboard/components/SentinelCinematic.tsx:39-57 | The new velocity is 0.99 times (old velocity + 0.05 times the field's push). The position then advances by that damped velocity and is wrapped on each axis, so a move off one edge lands on the opposite edge. The mote ends on the canvas; size and alpha never change. |
| FlowField.MoteStepKeepsVelocityBound | onix-labs-sovereign-dashboard/components/SentinelCinematic.tsx:43-48 | With cos and sin bounded by [-1, 1], velocity components in [-4.95, 4.95] stay there. |
| FlowField.Frame | onix-labs-sovereign-dashboard/components/SentinelCinematic.tsx:33-57 | The clock advances by 0.005 before the motes are stepped. No mote is added or removed, and every mote ends on the current canvas. |
| FlowField.RunKeepsCountAndClock | onix-labs-sovereign-dashboard/components/SentinelCinematic.tsx:16-33 | After n frames there are 1500 motes and the clock reads 0.005 n. |
| FlowField.RunStaysOnCanvas | onix-labs-sovereign-dashboard/components/SentinelCinematic.tsx:53-57 | After any non-empty run, every mote lies on the latest canvas, whatever resizes came before. |
| FlowField.RunVelocityBounded | onix-labs-sovereign-dashboard/components/SentinelCinematic.tsx:22-48 | With bounded trigonometry, velocity components stay in [-4.95, 4.95] forever. |
| FlowField.Draw | onix-labs-sovereign-dashboard/components/SentinelCinematic.tsx:60-67 | A mote is white exactly when its speed exceeds 2. Its radius is its size times (1 + speed / 2), so a resting mote is drawn at its size and, for non-negative size and speed, the radius is never below the size. |
| FlowField.FasterDrawnLarger | onix-labs-sovereign-dashboard/components/SentinelCinematic.tsx:60-67 | Of two motes of the same non-negative size, the faster one is never drawn with a smaller radius. |
| FlowField.WhiteIffFast | onix-labs-sovereign-dashboard/components/SentinelCinematic.tsx:60-67 | For a true square root, a mote is white exactly when vx² + vy² > 4, and its radius is never below its size. |
| Hero.Next | onix-labs-sovereign-dashboard/components/HeroSection.tsx:15-19 | The next sector follows the cycle HYPERION, SENTINEL, KERNEL: its index is one more than the current one's, modulo 3, so it always differs from the current one. |
| Hero.CycleOfThree | onix-labs-sovereign-dashboard/components/HeroSection.tsx:15-19 | Three advances return to the start; one or two do not. |
| Hero.NextNAdd | onix-labs-sovereign-dashboard/components/HeroSection.tsx:15-19 | Advances taken in two batches add up. |
| Hero.Reachable | onix-labs-sovereign-dashboard/components/HeroSection.tsx:15-19 | Every sector reaches every other in fewer than three advances. |
| Hero.HandleNext | onix-labs-sovereign-dashboard/components/HeroSection.tsx:12-14 | A click raises the transition flag and schedules one more advance. It does not change the sector. |
| Hero.Elapse | onix-labs-sovereign-dashboard/components/HeroSection.tsx:14-21 | A scheduled step advances the sector exactly once and lowers the flag. |
| Hero.SettleAdvancesOncePerClick | onix-labs-sovereign-dashboard/components/HeroSection.tsx:12-21 | Once all pending steps fire, the sector has advanced once per click. |
| Hero.ClicksNotCoalesced | onix-labs-sovereign-dashboard/components/HeroSection.tsx:12-21 | Two quick clicks advance the sector twice. The flag drops after the first step while the second is still pending. |
| Hero.FirstClickShowsSentinel | onix-labs-sovereign-dashboard/components/HeroSection.tsx:9-21 | From the mount state (HYPERION, not transitioning), one settled click shows SENTINEL. |
| Hero.Shown | onix-labs-sovereign-dashboard/components/HeroSection.tsx:29-31 | Exactly one cinematic is rendered, and it is the active sector's. |
| Monolith.CounterTick | components/MonolithUI.tsx:17 | Each tick adds an integer in [0, 1023]. |
| Monolith.CounterBounds | components/MonolithUI.tsx:11-20 | Starting from 0, after n ticks the counter lies in [0, 1023 n]. |
| Monolith.CounterMonotone | components/MonolithUI.tsx:11-20 | No earlier reading of the counter exceeds a later one. |
| Monolith.ContentIsTotal | components/MonolithUI.tsx:51-74 | The content map has an entry for every sector. |
| Monolith.ActiveContent | components/MonolithUI.tsx:74 | The lookup `content[activeSector]` is defined for every sector and returns that sector's entry of the content map. |
| Monolith.MetricText | components/MonolithUI.tsx:115 | HYPERION has no fixed value and shows the formatted counter. SENTINEL shows "0.00000" and KERNEL shows "NEGATIVE". |
| Monolith.MetricFollowsCounterOnlyOnHyperion | components/MonolithUI.tsx:115 | A change in the counter's text changes the metric exactly on HYPERION. |
| Monolith.DotClass | components/MonolithUI.tsx:82 | The dot is a background class with the same hue and shade as the sector's text colour: amber, violet or cyan. |
| Monolith.WavePhaseLinear | components/MonolithUI.tsx:29-31 | After n frames the waveform phase is 0.2 n. |
| Typewriter.Slice | components/LandingPage.tsx:15 | The shown text is always a prefix of the full line: of length i while i is in range, and the whole line past the end. |
| Typewriter.TickKeepsInv | components/LandingPage.tsx:13-17 | Each callback keeps these facts: the text is a prefix one character behind the counter, and the timer runs exactly while the counter is within the line. |
| Typewriter.TicksShowPrefix | components/LandingPage.tsx:13-17 | After k callbacks the counter is k and the first k - 1 characters are shown. |
| Typewriter.StopsWithFullText | components/LandingPage.tsx:13-17 | From callback len + 1 on, the timer is stopped and the whole line is shown. |
| Typewriter.Animate | components/LandingPage.tsx:12-20 | Run to completion, the timer fires exactly len + 1 times and leaves the full line shown. |
| Typewriter.LandingLine | components/LandingPage.tsx:10-17 | "CONNECTING TO PUBLIC GRID..." has 28 characters. It is fully shown after 29 callbacks, and the timer is still running after 28. |
| Js.TrimStart | components/Terminal.tsx:21 | The leading half of `trim()`: the result is a suffix of the input that does not start with white space, and everything dropped is white space. |
| Js.TrimEnd | components/Terminal.tsx:21 | The trailing half of `trim()`: the result is a prefix of its input that does not end with white space, and everything dropped is white space. |
| Js.TrimEmptyIffBlank | components/Terminal.tsx:21 | `trim()` yields the empty string exactly when every character is ECMAScript white space. |
| Terminal.Submit | components/Terminal.tsx:19-24 | A blank input, or any input while streaming, sends nothing and leaves the field alone. Otherwise the untrimmed input is sent exactly once and the field is cleared. |
| Terminal.SecondSubmitSendsNothing | components/Terminal.tsx:21-23 | Of two submits in a row, at most one sends. |
| Terminal.ControlsFor | components/Terminal.tsx:77-82 | The text field is disabled exactly while streaming. The send button is disabled exactly when the submit guard would reject. |
| Terminal.BubbleFor | components/Terminal.tsx:50-60 | Only model messages are captioned 'ONIX AI'; user and system messages read 'CITIZEN'. Only user messages are right-aligned. Content is shown verbatim. |
| Terminal.SystemMessagesMixedStyle | components/Terminal.tsx:50-57 | A system message takes the user's caption but the model's alignment. |
| Terminal.TranscriptFor | components/Terminal.tsx:42-64 | The welcome panel shows exactly when there are no messages. Otherwise there is one bubble per message, in order. |
| Footer.Submit | components/TerminalFooter.tsx:8-15 | A non-blank input moves to SECURED and clears the field. A blank one changes nothing. |
| Footer.Timeout | components/TerminalFooter.tsx:13 | The timer returns the form to IDLE and keeps the input. |
| Footer.Edit | components/TerminalFooter.tsx:30-35 | Typing sets the field while IDLE and is ignored while the disabled field is SECURED. |
| Footer.SecuredIgnoresSubmit | components/TerminalFooter.tsx:8-15 | Submitting while SECURED changes nothing. |
| Footer.SubmitThenTimeoutResets | components/TerminalFooter.tsx:5-13 | A non-blank submit followed by the timer returns to the mount state. |
| Footer.ReplayConsistent | components/TerminalFooter.tsx:5-15 | After any sequence of keystrokes, submits and timer firings, a SECURED form has an empty input. |
| Footer.View | components/TerminalFooter.tsx:34-43 | While SECURED the field is disabled, the placeholder is empty and the banner shows. While IDLE none of these hold, and the prompt is the placeholder. |

## Left out

- Trigonometry, `Math.sqrt` and `Math.pow`: cosine, sine and square root are parameters. `Math.pow(x, 2)` is modelled as `x * x`.
- Floating-point rounding: doubles are exact reals throughout.
- The 3D rotations, the perspective projections and every canvas drawing call, in all the cinematics, the torus visualisation and the views. They are pixel output. The per-frame random radius wobble of each torus particle, `(Math.random() - 0.5) * jitter`, only feeds the projection and is left out with it.
- React wiring and scheduling: `useEffect`, `useRef`, `setInterval`, `setTimeout`, `requestAnimationFrame`, teardown and resize listeners. Callbacks are step functions, and a resize is modelled as the canvas size a frame sees.
- The first canvas effect of the reactor view, HyperionView.tsx lines 48-80. Its `render` is never invoked.
- The animation-frame callback of the waveform in MonolithUI.tsx is never cancelled. This is a lifecycle concern; only the phase clock is modelled.
- The waveform's sine curve and the counter's `toLocaleString()` formatting. The formatter is a parameter of `Monolith.MetricText`.
- The unused `colorIntensity` in SentinelCinematic.tsx line 61, which nothing reads.
- geminiService.ts, the chat relay to an external SDK: the terminal's send callback is recorded, not followed.
- SystemStatus.tsx (chart configuration), HyperionCinematic.tsx (a decorative pulse), and the static sections and App.tsx. None of them holds state logic.
- The browser's clamp of CSS `opacity` to [0, 1]. `Interferometer.Display` states the style value 0.3 plus the intensity, which exceeds 1 above intensity 0.7 (slider at most 36); the detector is then drawn fully opaque.
- Browser constraint validation of the footer's `type="email"` field. The model lets every submit event reach the handler.
- Interferometer.Read: the cosine is arbitrary. Bounds on the intensity and the readings at 0 and 100 are stated only under explicit hypotheses about the cosine: cos 0 = 1 exactly, and cos(pi/2) within 0.1 of 0.
- Hyperion.Tick: stated with a single draw shared by the four metrics, as the code does. Stability and containment are deliberately not bounded by 15 and 0, because the code does not clamp them.

=== FILE: flowfield.dfy ===
/** The sentinel cinematic (SentinelCinematic.tsx): 1500 motes pushed by a
    trigonometric flow field, damped, advanced and wrapped around the edges
    of the canvas.  Cosine, sine and square root are parameters; the canvas
    size is read afresh every frame, since a resize may change it. */
module FlowField {
  import opened Js

  const ParticleCount: nat := 1500
  /** Advance of the field's clock per frame. */
  const TimeStep: real := 0.005
  /** Strength of the field's push per frame. */
  const Push: real := 0.05
  /** Share of the velocity kept each frame. */
  const Damping: real := 0.99
  /** Spatial frequency of the field. */
  const FieldScale: real := 0.005
  /** Speed above which a mote is drawn white. */
  const HotSpeed: real := 2.0
  /** A velocity component bound that the dynamics preserve: 0.99 (b + 0.05)
      is again b exactly for this b. */
  const SpeedBound: real := 4.95

  datatype Mote = Mote(x: real, y: real, vx: real, vy: real, size: real, alpha: real)

  /** The canvas size: `window.innerWidth` and `window.innerHeight`. */
  datatype Canvas = Canvas(width: nat, height: nat)

  datatype Flow = Flow(motes: seq<Mote>, time: real)

  /** A mote lies inside the canvas rectangle, edges included. */
  predicate Inside(m: Mote, c: Canvas) {
    0.0 <= m.x <= c.width as real && 0.0 <= m.y <= c.height as real
  }

  /** Both velocity components lie in [-b, b]. */
  predicate VelocityWithin(m: Mote, b: real) {
    -b <= m.vx <= b && -b <= m.vy <= b
  }

  /** What a freshly built mote looks like: inside the canvas, each velocity
      component in [-1, 1), size in [0, 2), alpha in [0, 1). */
  predicate Fresh(m: Mote, c: Canvas) {
    && Inside(m, c)
    && -1.0 <= m.vx < 1.0 && -1.0 <= m.vy < 1.0
    && 0.0 <= m.size < 2.0 && 0.0 <= m.alpha < 1.0
  }

  /** The product of two non-negative reals is non-negative. */
  lemma ProductNonNegative(x: real, y: real)
    requires 0.0 <= x && 0.0 <= y
    ensures 0.0 <= x * y
  {
  }

  /** A draw scaled to a non-negative extent: it lies in [0, extent]. */
  function Scale(a: Unit, extent: real): (r: real)
    requires 0.0 <= extent
    ensures 0.0 <= r <= extent
  {
    ProductNonNegative(a, extent);
    ProductNonNegative(1.0 - a, extent);
    a * extent
  }

  /** A mote from its six `Math.random()` draws, in call order. */
  function NewMote(c: Canvas, a: Unit, b: Unit, d: Unit, e: Unit, f: Unit, g: Unit): (m: Mote)
    ensures Fresh(m, c)
  {
    Mote(Scale(a, c.width as real), Scale(b, c.height as real),
         (d - 0.5) * 2.0, (e - 0.5) * 2.0, f * 2.0, g)
  }

  /** Mote `i`: it uses draws 6i to 6i + 5 of the random stream. */
  function MoteAt(rand: nat -> Unit, c: Canvas, i: nat): (m: Mote)
    ensures Fresh(m, c)
  {
    NewMote(c, rand(6 * i), rand(6 * i + 1), rand(6 * i + 2), rand(6 * i + 3),
            rand(6 * i + 4), rand(6 * i + 5))
  }

  /** The mote array, built once on the initial canvas: exactly 1500 fresh
      motes, with the clock at 0. */
  function Spawn(rand: nat -> Unit, c: Canvas): (f: Flow)
    ensures |f.motes| == ParticleCount
    ensures f.time == 0.0
    ensures forall i :: 0 <= i < |f.motes| ==> Fresh(f.motes[i], c)
  {
    Flow(seq(ParticleCount, i requires 0 <= i < ParticleCount => MoteAt(rand, c, i)), 0.0)
  }

  /** The edge wrap on one axis: a coordinate left of 0 jumps to the far
      edge, then one beyond the far edge jumps to 0.  On a canvas of
      non-negative extent the result is always on the canvas; a coordinate
      already on it is untouched. */
  function Wrap(coord: real, extent: real): (r: real)
    ensures extent >= 0.0 ==> 0.0 <= r <= extent
    ensures coord < 0.0 ==> r == extent
    ensures 0.0 <= coord && extent < coord ==> r == 0.0
    ensures 0.0 <= coord <= extent ==> r == coord
  {
    var low := if coord < 0.0 then extent else coord;
    if low > extent then 0.0 else low
  }

  /** The flow field's direction at a point and time. */
  function Angle(cos: real -> real, sin: real -> real, m: Mote, time: real): real {
    cos(m.x * FieldScale + time) * sin(m.y * FieldScale + time) * Pi * 2.0
  }

  /** One mote's update at clock `time`: the field's push is added to the
      velocity, the sum is damped by 0.99, and only then is the position
      advanced, by the damped velocity, and wrapped to the opposite edge on
      each axis it leaves.  The mote ends up on the canvas; a move that
      stays on the canvas is exactly the damped velocity; size and alpha
      never change. */
  function MoteStep(cos: real -> real, sin: real -> real, c: Canvas, time: real, m: Mote): (r: Mote)
    ensures Inside(r, c)
    ensures r.vx == Damping * (m.vx + Push * cos(Angle(cos, sin, m, time)))
    ensures r.vy == Damping * (m.vy + Push * sin(Angle(cos, sin, m, time)))
    ensures 0.0 <= m.x + r.vx <= c.width as real ==> r.x == m.x + r.vx
    ensures 0.0 <= m.y + r.vy <= c.height as real ==> r.y == m.y + r.vy
    ensures r.x == Wrap(m.x + r.vx, c.width as real)
    ensures r.y == Wrap(m.y + r.vy, c.height as real)
    ensures r.size == m.size && r.alpha == m.alpha
  {
    var angle := Angle(cos, sin, m, time);
    var vx := (m.vx + cos(angle) * 0.05) * 0.99;
    var vy := (m.vy + sin(angle) * 0.05) * 0.99;
    var x := Wrap(m.x + vx, c.width as real);
    var y := Wrap(m.y + vy, c.height as real);
    m.(x := x, y := y, vx := vx, vy := vy)
  }

  /** With a cosine and sine bounded by [-1, 1], a mote whose velocity
      components lie in [-4.95, 4.95] keeps them there: the push adds at
      most 0.05 and the damping takes back exactly as much at the bound. */
  lemma MoteStepKeepsVelocityBound(cos: real -> real, sin: real -> real, c: Canvas, time: real, m: Mote)
    requires forall a :: -1.0 <= cos(a) <= 1.0
    requires forall a :: -1.0 <= sin(a) <= 1.0
    requires VelocityWithin(m, SpeedBound)
    ensures VelocityWithin(MoteStep(cos, sin, c, time, m), SpeedBound)
  {
    var angle := Angle(cos, sin, m, time);
    assert -1.0 <= cos(angle) <= 1.0 && -1.0 <= sin(angle) <= 1.0;
  }

  /** One frame on the canvas `c`: the clock first advances by 0.005, then
      every mote is stepped at the new clock.  No mote is added or removed
      and every mote ends up on the canvas. */
  function Frame(cos: real -> real, sin: real -> real, c: Canvas, f: Flow): (r: Flow)
    ensures |r.motes| == |f.motes|
    ensures r.time - f.time == TimeStep
    ensures forall i :: 0 <= i < |r.motes| ==> Inside(r.motes[i], c)
    ensures forall i :: 0 <= i < |r.motes| ==>
      r.motes[i] == MoteStep(cos, sin, c, r.time, f.motes[i])
  {
    var time := f.time + 0.005;
    Flow(seq(|f.motes|, i requires 0 <= i < |f.motes| => MoteStep(cos, sin, c, time, f.motes[i])), time)
  }

  /** The frames rendered, one per element of `canvases`: the canvas size
      each frame sees, in order. */
  function Run(cos: real -> real, sin: real -> real, f: Flow, canvases: seq<Canvas>): Flow {
    if |canvases| == 0 then f
    else Frame(cos, sin, canvases[|canvases| - 1], Run(cos, sin, f, canvases[..|canvases| - 1]))
  }

  /** However many frames run, there are 1500 motes and the clock reads
      0.005 per frame. */
  lemma {:induction false} RunKeepsCountAndClock(cos: real -> real, sin: real -> real, rand: nat -> Unit,
                                                 c0: Canvas, canvases: seq<Canvas>)
    ensures |Run(cos, sin, Spawn(rand, c0), canvases).motes| == ParticleCount
    ensures Run(cos, sin, Spawn(rand, c0), canvases).time == TimeStep * |canvases| as real
  {
    if |canvases| > 0 {
      RunKeepsCountAndClock(cos, sin, rand, c0, canvases[..|canvases| - 1]);
    }
  }

  /** After at least one frame every mote lies on the latest canvas, whatever
      resizes happened before. */
  lemma RunStaysOnCanvas(cos: real -> real, sin: real -> real, f: Flow, canvases: seq<Canvas>)
    requires |canvases| > 0
    ensures forall i :: 0 <= i < |Run(cos, sin, f, canvases).motes| ==>
      Inside(Run(cos, sin, f, canvases).motes[i], canvases[|canvases| - 1])
  {
  }

  /** With bounded trigonometry, every mote's velocity components stay in
      [-4.95, 4.95] forever, starting from the spawn's [-1, 1). */
  lemma {:induction false} RunVelocityBounded(cos: real -> real, sin: real -> real, rand: nat -> Unit,
                                              c0: Canvas, canvases: seq<Canvas>)
    requires forall a :: -1.0 <= cos(a) <= 1.0
    requires forall a :: -1.0 <= sin(a) <= 1.0
    ensures forall i :: 0 <= i < |Run(cos, sin, Spawn(rand, c0), canvases).motes| ==>
      VelocityWithin(Run(cos, sin, Spawn(rand, c0), canvases).motes[i], SpeedBound)
  {
    if |canvases| > 0 {
      var prefix := canvases[..|canvases| - 1];
      var before := Run(cos, sin, Spawn(rand, c0), prefix);
      var after := Run(cos, sin, Spawn(rand, c0), canvases);
      RunVelocityBounded(cos, sin, rand, c0, prefix);
      forall i | 0 <= i < |after.motes|
        ensures VelocityWithin(after.motes[i], SpeedBound)
      {
        MoteStepKeepsVelocityBound(cos, sin, canvases[|canvases| - 1], after.time, before.motes[i]);
      }
    }
  }

  datatype Tint = Violet | White

  /** How a mote is drawn, given its speed. */
  datatype Dot = Dot(tint: Tint, radius: real)

  /** The mote's speed, through the square-root parameter. */
  function Speed(sqrt: real -> real, m: Mote): real {
    sqrt(SquaredSpeed(m))
  }

  /** The squared length of the velocity. */
  function SquaredSpeed(m: Mote): real {
    m.vx * m.vx + m.vy * m.vy
  }

  /** A mote is drawn violet, or white when faster than 2, with a radius
      that grows by half its size per unit of speed: a resting mote is drawn
      at its size. */
  function Draw(sqrt: real -> real, m: Mote): (d: Dot)
    ensures d.tint == White <==> Speed(sqrt, m) > HotSpeed
    ensures d.radius == m.size * (1.0 + Speed(sqrt, m) / 2.0)
    ensures Speed(sqrt, m) == 0.0 ==> d.radius == m.size
    ensures Speed(sqrt, m) >= 0.0 && m.size >= 0.0 ==> d.radius >= m.size
  {
    var speed := Speed(sqrt, m);
    var fill := if speed > 2.0 then White else Violet;
    Dot(fill, m.size * (1.0 + speed / 2.0))
  }

  /** Of two motes of the same non-negative size, the faster one is never
      drawn smaller. */
  lemma FasterDrawnLarger(sqrt: real -> real, m1: Mote, m2: Mote)
    requires m1.size == m2.size && m1.size >= 0.0
    requires Speed(sqrt, m1) <= Speed(sqrt, m2)
    ensures Draw(sqrt, m1).radius <= Draw(sqrt, m2).radius
  {
    ProductNonNegative(m1.size, (Speed(sqrt, m2) - Speed(sqrt, m1)) / 2.0);
  }

  /** For a true square root, a mote is white exactly when the squared
      velocity exceeds 4, and its radius is never below its size. */
  lemma WhiteIffFast(sqrt: real -> real, m: Mote)
    requires forall a :: a >= 0.0 ==> sqrt(a) >= 0.0 && sqrt(a) * sqrt(a) == a
    requires m.size >= 0.0
    ensures Draw(sqrt, m).tint == White <==> SquaredSpeed(m) > 4.0
    ensures Draw(sqrt, m).radius >= m.size
  {
    var q := SquaredSpeed(m);
    var s := sqrt(q);
    assert q >= 0.0;
    assert s >= 0.0 && s * s == q;
    if s > 2.0 {
      assert s * s > 2.0 * s > 4.0;
    } else {
      assert s * s <= 2.0 * s <= 4.0;
    }
  }

  /** The spawn is fresh: every mote inside the initial canvas with velocity
      components within the bound the dynamics keep. */
  lemma SpawnWithinBounds(rand: nat -> Unit, c: Canvas)
    ensures forall i :: 0 <= i < |Spawn(rand, c).motes| ==>
      Inside(Spawn(rand, c).motes[i], c) && VelocityWithin(Spawn(rand, c).motes[i], SpeedBound)
  {
  }
}

=== FILE: footer.dfy ===
/** The footer's handshake form (TerminalFooter.tsx): an input and a status
    that is IDLE or SECURED.  A non-blank submit secures the form and
    schedules the return to IDLE; the timer's firing is its own step. */
module Footer {
  import opened Js

  datatype Status = IDLE | SECURED

  datatype FooterState = FooterState(input: string, status: Status)

  /** The mount state: IDLE with an empty input. */
  const Initial := FooterState("", IDLE)

  /** While SECURED the input is empty: the submit that secured the form
      cleared it, and the disabled field takes no edits. */
  predicate Consistent(s: FooterState) {
    s.status == SECURED ==> s.input == ""
  }

  /** A form submit: a non-blank input secures the form and clears the
      field; a blank one changes nothing. */
  function Submit(s: FooterState): (r: FooterState)
    ensures !Blank(s.input) ==> r == FooterState("", SECURED)
    ensures Blank(s.input) ==> r == s
    ensures Consistent(s) ==> Consistent(r)
  {
    TrimEmptyIffBlank(s.input);
    if Trim(s.input) != "" then FooterState("", SECURED) else s
  }

  /** The three-second timer firing: the status returns to IDLE and the
      input is kept. */
  function Timeout(s: FooterState): (r: FooterState)
    ensures r.status == IDLE && r.input == s.input
    ensures Consistent(r)
  {
    s.(status := IDLE)
  }

  /** Typing into the field: it takes the new value while IDLE; while
      SECURED the field is disabled and the value is kept. */
  function Edit(s: FooterState, value: string): (r: FooterState)
    ensures r.status == s.status
    ensures s.status == IDLE ==> r.input == value
    ensures s.status == SECURED ==> r == s
    ensures Consistent(s) ==> Consistent(r)
  {
    if s.status == SECURED then s else s.(input := value)
  }

  /** Submitting while SECURED does nothing, since the input is empty. */
  lemma SecuredIgnoresSubmit(s: FooterState)
    requires Consistent(s) && s.status == SECURED
    ensures Submit(s) == s
  {
  }

  /** The round trip: from IDLE with a non-blank input, a submit followed
      by the timer brings the form back to the mount state. */
  lemma SubmitThenTimeoutResets(s: FooterState)
    requires !Blank(s.input)
    ensures Timeout(Submit(s)) == Initial
  {
  }

  /** What can happen to the form: a keystroke leaving `value` in the field,
      a submit, or the pending timer firing. */
  datatype Event = Type(value: string) | Send | Fire

  /** The state after a sequence of events from mount. */
  function Replay(events: seq<Event>): FooterState {
    if |events| == 0 then Initial
    else
      var s := Replay(events[..|events| - 1]);
      match events[|events| - 1]
      case Type(value) => Edit(s, value)
      case Send => Submit(s)
      case Fire => Timeout(s)
  }

  /** Whatever happens, a SECURED form has an empty input. */
  lemma {:induction false} ReplayConsistent(events: seq<Event>)
    ensures Consistent(Replay(events))
  {
    if |events| > 0 {
      ReplayConsistent(events[..|events| - 1]);
    }
  }

  /** What the form shows. */
  datatype FooterView = FooterView(inputDisabled: bool, placeholder: string, banner: bool)

  const Prompt: string := "INITIALIZE ENCRYPTED HANDSHAKE (ENTER EMAIL)"

  /** While SECURED the field is disabled, its placeholder empty and the
      'TRANSMISSION SECURED' banner shown; while IDLE none of these hold. */
  function View(s: FooterState): (v: FooterView)
    ensures v.inputDisabled <==> s.status == SECURED
    ensures v.banner <==> s.status == SECURED
    ensures v.placeholder == "" <==> s.status == SECURED
    ensures s.status == IDLE ==> v.placeholder == Prompt
  {
    FooterView(s.status == SECURED, if s.status == SECURED then "" else Prompt, s.status == SECURED)
  }
}

=== FILE: hero.dfy ===
/** The hero section (HeroSection.tsx): the three sectors shown in a cycle.
    A click raises the transition flag at once and schedules, half a second
    later, a step that advances the sector and lowers the flag.  Scheduled
    steps are not merged, so the state counts the ones still pending. */
module Hero {
  import opened Types

  /** The sector after `s`: HYPERION, SENTINEL, KERNEL, then HYPERION
      again.  It always differs from `s`. */
  function Next(s: Sector): (r: Sector)
    ensures r != s
    ensures Index(r) == (Index(s) + 1) % 3
  {
    if s == HYPERION then SENTINEL
    else if s == SENTINEL then KERNEL
    else HYPERION
  }

  /** `k` advances in a row. */
  function NextN(s: Sector, k: nat): Sector {
    if k == 0 then s else Next(NextN(s, k - 1))
  }

  /** Three advances return to the starting sector: the cycle has period 3. */
  lemma CycleOfThree(s: Sector)
    ensures NextN(s, 3) == s
    ensures NextN(s, 1) != s && NextN(s, 2) != s
  {
  }

  /** Advances taken in two batches add up. */
  lemma {:induction false} NextNAdd(s: Sector, a: nat, b: nat)
    ensures NextN(NextN(s, a), b) == NextN(s, a + b)
    decreases b
  {
    if b > 0 {
      NextNAdd(s, a, b - 1);
    }
  }

  /** Position of a sector in the cycle. */
  function Index(s: Sector): (i: nat)
    ensures i < 3
  {
    match s
    case HYPERION => 0
    case SENTINEL => 1
    case KERNEL => 2
  }

  /** The number of advances, fewer than three, that lead from `a` to `b`. */
  function Distance(a: Sector, b: Sector): (k: nat)
    ensures k < 3
    ensures k == 0 <==> a == b
  {
    (Index(b) - Index(a) + 3) % 3
  }

  /** Every sector is reachable from every other, in `Distance(a, b)`
      advances. */
  lemma Reachable(a: Sector, b: Sector)
    ensures NextN(a, Distance(a, b)) == b
  {
  }

  datatype HeroState = HeroState(sector: Sector, transitioning: bool, pending: nat)

  /** The mount state: HYPERION, not transitioning, nothing scheduled. */
  const Initial := HeroState(HYPERION, false, 0)

  /** A click on "Next Sector": the flag is raised and one more advance is
      scheduled; the sector itself does not change yet. */
  function HandleNext(s: HeroState): (r: HeroState)
    ensures r.transitioning
    ensures r.sector == s.sector
    ensures r.pending == s.pending + 1
  {
    s.(transitioning := true, pending := s.pending + 1)
  }

  /** The oldest scheduled step firing: the sector advances exactly once and
      the flag is lowered, even if further steps are still pending. */
  function Elapse(s: HeroState): (r: HeroState)
    requires s.pending > 0
    ensures r.sector == Next(s.sector)
    ensures !r.transitioning
    ensures r.pending == s.pending - 1
  {
    HeroState(Next(s.sector), false, s.pending - 1)
  }

  /** Every pending step fires, oldest first. */
  function Settle(s: HeroState): HeroState
    decreases s.pending
  {
    if s.pending == 0 then s else Settle(Elapse(s))
  }

  /** Once every pending step has fired, the sector has advanced once per
      step and nothing is pending. */
  lemma {:induction false} SettleAdvancesOncePerClick(s: HeroState)
    ensures Settle(s).sector == NextN(s.sector, s.pending)
    ensures Settle(s).pending == 0
    ensures s.pending > 0 ==> !Settle(s).transitioning
    decreases s.pending
  {
    if s.pending > 0 {
      var e := Elapse(s);
      SettleAdvancesOncePerClick(e);
      NextNAdd(s.sector, 1, s.pending - 1);
    }
  }

  /** Clicks are not merged: two clicks before either step fires advance
      the sector twice.  The flag is lowered by the first step although the
      second is still pending. */
  lemma ClicksNotCoalesced(s: HeroState)
    ensures var twice := HandleNext(HandleNext(s));
      && Elapse(twice).pending == s.pending + 1
      && !Elapse(twice).transitioning
      && Elapse(Elapse(twice)).sector == Next(Next(s.sector))
      && Elapse(Elapse(twice)).sector != Next(s.sector)
  {
  }

  /** One click from the mount state, once it settles, shows SENTINEL. */
  lemma FirstClickShowsSentinel()
    ensures Settle(HandleNext(Initial)) == HeroState(SENTINEL, false, 0)
  {
  }

  datatype Cinematic = HyperionCinematic | SentinelCinematic | KernelCinematic

  /** The cinematics rendered for a sector: the three guarded renders, each
      contributing its cinematic when its sector is active.  Exactly one is
      rendered, and it is the active sector's own. */
  function Shown(s: Sector): (r: set<Cinematic>)
    ensures |r| == 1
    ensures HyperionCinematic in r <==> s == HYPERION
    ensures SentinelCinematic in r <==> s == SENTINEL
    ensures KernelCinematic in r <==> s == KERNEL
  {
    (if s == HYPERION then {HyperionCinematic} else {})
    + (if s == SENTINEL then {SentinelCinematic} else {})
    + (if s == KERNEL then {KernelCinematic} else {})
  }
}

=== FILE: hyperion.dfy ===
/** The fusion-reactor simulator (HyperionView.tsx): a physics tick that turns
    the two confinement sliders into four metrics, and the render-side
    quantities (chaos, filament colour, glow, badge) derived from them. */
module Hyperion {
  import opened Js
  import opened Types

  const OptimalField: int := 85
  const OptimalInjection: int := 60
  /** Efficiency lost per unit of distance from an optimum, on either slider. */
  const PenaltyPerUnit: real := 0.025
  /** The stability a perfectly tuned reactor reads without jitter. */
  const FullStability: real := 15.0

  /** Total distance of the two sliders from their optima. */
  function Detuning(field: Slider, injection: Slider): nat {
    Abs(field - OptimalField) + Abs(injection - OptimalInjection)
  }

  /** The closed-form efficiency of a slider setting: it lies in [0, 1], is 1
      only at the optimum, and is 0 once the detuning reaches 40. */
  function Efficiency(field: Slider, injection: Slider): (e: real)
    ensures 0.0 <= e <= 1.0
    ensures e == 1.0 <==> field == OptimalField && injection == OptimalInjection
    ensures e > 0.0 <==> Detuning(field, injection) < 40
    ensures e > 0.0 ==> e == 1.0 - PenaltyPerUnit * Detuning(field, injection) as real
  {
    var fieldDelta := Abs(field - OptimalField);
    var injDelta := Abs(injection - OptimalInjection);
    Max(0.0, 1.0 - fieldDelta as real * 0.025 - injDelta as real * 0.025)
  }

  /** Moving either slider closer to its optimum never lowers efficiency. */
  lemma EfficiencyMonotone(f1: Slider, i1: Slider, f2: Slider, i2: Slider)
    requires Abs(f1 - OptimalField) <= Abs(f2 - OptimalField)
    requires Abs(i1 - OptimalInjection) <= Abs(i2 - OptimalInjection)
    ensures Efficiency(f1, i1) >= Efficiency(f2, i2)
  {
  }

  /** One physics tick.  `u` is the tick's single `Math.random()` draw; the
      jitter `u - 0.5` is shared by all four metrics.  `prev` is passed, as
      the state updater passes it, and ignored.
      Stability and output are clamped at 0 and lie within a jitter bound of
      their noiseless values; stability may exceed 15 (up to just under
      15.1); the temperature is an integer in [295, 1104]; the containment
      field is not clamped and can dip to -0.0025. */
  function Tick(prev: HyperionMetrics, field: Slider, injection: Slider, u: Unit): (m: HyperionMetrics)
    ensures var e := Efficiency(field, injection);
      && 0.0 <= m.plasmaStability < 15.1
      && -0.1 <= m.plasmaStability - FullStability * e <= 0.1
      && 0.0 <= m.outputMW && -0.025 <= m.outputMW - 2.5 * e <= 0.025
      && 295 <= m.coreTemp <= 1104
      && -6.0 < m.coreTemp as real - (300.0 + 800.0 * e) < 5.0
      && -0.0025 <= m.containmentField < 0.9225
      && -0.0025 <= m.containmentField - 0.92 * e <= 0.0025
  {
    var efficiency := Efficiency(field, injection);
    var jitter := u - 0.5;
    var newStability := efficiency * 15.0 + jitter * 0.2;
    var newOutput := efficiency * 2.5 + jitter * 0.05;
    var newTemp := 300.0 + efficiency * 800.0 + jitter * 10.0;
    var newContainment := efficiency * 0.92 + jitter * 0.005;
    HyperionMetrics(Max(0.0, newStability), Max(0.0, newOutput), newTemp.Floor, newContainment)
  }

  /** A tick depends only on the sliders and the fresh draw, never on the
      previous metrics. */
  lemma TickIgnoresPrevious(p1: HyperionMetrics, p2: HyperionMetrics, field: Slider, injection: Slider, u: Unit)
    ensures Tick(p1, field, injection, u) == Tick(p2, field, injection, u)
  {
  }

  /** The containment field really does go negative: with the sliders
      detuned by 40 or more, every draw below one half gives a negative
      field, down to -0.0025 for the lowest draw. */
  lemma ContainmentCanBeNegative(prev: HyperionMetrics, field: Slider, injection: Slider, u: Unit)
    requires Detuning(field, injection) >= 40
    ensures Tick(prev, field, injection, u).containmentField < 0.0 <==> u < 0.5
    ensures u == 0.0 ==> Tick(prev, field, injection, u).containmentField == -0.0025
  {
    assert Efficiency(field, injection) == 0.0;
  }

  /** Stability can exceed the nominal ceiling of 15: at the optimum it does
      exactly for the draws above one half. */
  lemma StabilityCanExceedCeiling(prev: HyperionMetrics, u: Unit)
    ensures Tick(prev, OptimalField, OptimalInjection, u).plasmaStability > FullStability <==> u > 0.5
  {
    assert Efficiency(OptimalField, OptimalInjection) == 1.0;
  }

  // ---------------------------------------------------------------------
  // Render-side derivations (the live render loop and the status widgets)
  // ---------------------------------------------------------------------

  /** How close the reactor is to perfect, capped at 1. */
  function StabilityRatio(stability: real): real {
    Min(1.0, stability / FullStability)
  }

  /** The chaos factor: 0 for a perfectly stable plasma, 1 for none at all.
      For a non-negative stability it lies in [0, 1]; it is 0 exactly from
      stability 15 on and 1 exactly at stability 0. */
  function Chaos(stability: real): (c: real)
    ensures stability >= 0.0 ==> 0.0 <= c <= 1.0
    ensures stability >= 0.0 ==> (c == 0.0 <==> stability >= FullStability)
    ensures stability >= 0.0 ==> (c == 1.0 <==> stability == 0.0)
  {
    1.0 - StabilityRatio(stability)
  }

  /** Chaos never rises when stability rises. */
  lemma ChaosAntitone(s1: real, s2: real)
    requires s1 <= s2
    ensures Chaos(s2) <= Chaos(s1)
  {
  }

  /** How far the animation clock moves in one frame: from 0.02 for a calm
      plasma to 0.07 for a fully chaotic one. */
  function TimeStep(chaos: real): (dt: real)
    ensures 0.0 <= chaos <= 1.0 ==> 0.02 <= dt <= 0.07
    ensures chaos == 0.0 ==> dt == 0.02
    ensures chaos == 1.0 ==> dt == 0.07
  {
    0.02 + chaos * 0.05
  }

  /** More chaos never slows the clock, and strictly more chaos speeds it
      up. */
  lemma TimeStepMonotone(c1: real, c2: real)
    ensures c1 <= c2 ==> TimeStep(c1) <= TimeStep(c2)
    ensures c1 < c2 ==> TimeStep(c1) < TimeStep(c2)
  {
  }

  /** One render frame, for the metrics the loop reads: the animation clock
      advances by the time step of the plasma's chaos, a step between 0.02
      and 0.07. */
  function RenderFrame(time: real, m: HyperionMetrics): (t: real)
    ensures t == time + TimeStep(Chaos(m.plasmaStability))
    ensures m.plasmaStability >= 0.0 ==> 0.02 <= t - time <= 0.07
  {
    time + TimeStep(Chaos(m.plasmaStability))
  }

  /** A less stable plasma never runs the animation clock slower. */
  lemma LessStableRunsFaster(time: real, m1: HyperionMetrics, m2: HyperionMetrics)
    requires m1.plasmaStability <= m2.plasmaStability
    ensures RenderFrame(time, m2) - time <= RenderFrame(time, m1) - time
  {
    ChaosAntitone(m1.plasmaStability, m2.plasmaStability);
    TimeStepMonotone(Chaos(m2.plasmaStability), Chaos(m1.plasmaStability));
  }

  /** Radius of the core glow: between 20 and 60 for a non-negative
      stability, and falling by 40 for each unit of chaos. */
  function GlowSize(stability: real): (r: real)
    ensures stability >= 0.0 ==> 20.0 <= r <= 60.0
    ensures r == 60.0 - 40.0 * Chaos(stability)
  {
    20.0 + StabilityRatio(stability) * 40.0
  }

  datatype FilamentColour = Cyan | Amber | Red

  /** The filament colour: cyan by default, overridden by amber above chaos
      0.3, then by red above chaos 0.7. */
  function Filament(chaos: real): (c: FilamentColour)
    ensures c == Cyan <==> chaos <= 0.3
    ensures c == Amber <==> 0.3 < chaos <= 0.7
    ensures c == Red <==> chaos > 0.7
  {
    var byDefault := Cyan;
    var aboveAmber := if chaos > 0.3 then Amber else byDefault;
    if chaos > 0.7 then Red else aboveAmber
  }

  datatype GlowTint = RedGlow | CyanGlow

  /** The glow turns red once chaos passes one half, and is cyan up to it. */
  function Glow(chaos: real): (g: GlowTint)
    ensures g == RedGlow <==> chaos > 0.5
    ensures g == CyanGlow <==> chaos <= 0.5
  {
    if chaos > 0.5 then RedGlow else CyanGlow
  }

  datatype BadgeLabel = TopologicalLock | PlasmaInstability
  datatype BadgeTone = Green | AmberTone | RedTone

  /** The badge's label and tone.  The label reads 'Topological Lock' exactly
      when the tone is green, i.e. when stability exceeds 14; the amber tone
      covers (8, 14]. */
  function Badge(stability: real): (b: (BadgeLabel, BadgeTone))
    ensures b.0 == TopologicalLock <==> stability > 14.0
    ensures b.0 == TopologicalLock <==> b.1 == Green
    ensures b.1 == AmberTone <==> 8.0 < stability <= 14.0
    ensures b.1 == RedTone <==> stability <= 8.0
  {
    var tone := if stability > 14.0 then Green else if stability > 8.0 then AmberTone else RedTone;
    var caption := if stability > 14.0 then TopologicalLock else PlasmaInstability;
    (caption, tone)
  }

  /** The power icon pulses when the output exceeds 2 MW. */
  predicate PowerIconPulsing(outputMW: real) {
    outputMW > 2.0
  }

  /** At the optimum every draw locks the plasma: the badge reads
      'Topological Lock', the filaments are cyan, the glow is cyan and the
      power icon pulses. */
  lemma OptimumLocks(prev: HyperionMetrics, u: Unit)
    ensures var m := Tick(prev, OptimalField, OptimalInjection, u);
      && Badge(m.plasmaStability) == (TopologicalLock, Green)
      && Filament(Chaos(m.plasmaStability)) == Cyan
      && Glow(Chaos(m.plasmaStability)) == CyanGlow
      && PowerIconPulsing(m.outputMW)
  {
    var m := Tick(prev, OptimalField, OptimalInjection, u);
    assert Efficiency(OptimalField, OptimalInjection) == 1.0;
    assert m.plasmaStability >= 14.9;
  }

  /** Far from the optimum (detuning at least 40) every draw leaves the
      plasma fully chaotic: stability under 0.1, red filaments and badge. */
  lemma DetunedIsChaotic(prev: HyperionMetrics, field: Slider, injection: Slider, u: Unit)
    requires Detuning(field, injection) >= 40
    ensures var m := Tick(prev, field, injection, u);
      && m.plasmaStability <= 0.1
      && Chaos(m.plasmaStability) > 0.99
      && Filament(Chaos(m.plasmaStability)) == Red
      && Badge(m.plasmaStability) == (PlasmaInstability, RedTone)
  {
    var m := Tick(prev, field, injection, u);
    assert Efficiency(field, injection) == 0.0;
    assert m.plasmaStability <= 0.1;
  }
}

=== FILE: interferometer.dfy ===
/** The photonic logic gate (SentinelView.tsx): a Mach-Zehnder
    interferometer whose phase-shift slider sets the detector intensity and
    the logic bit read from it.  The cosine is a parameter: nothing is
    assumed about it except where a lemma says so. */
module Interferometer {
  import opened Js

  /** Intensity above which the gate reads a 1. */
  const LogicThreshold: real := 0.8
  /** Intensity above which the detector is drawn lit. */
  const LitThreshold: real := 0.1
  /** Throughput, in Tbps, at full intensity. */
  const PeakThroughput: real := 128.0

  /** The slider maps linearly onto [0, pi]: 0 to 0 and 100 to pi. */
  function PhaseRad(shift: Slider): (rad: real)
    ensures 0.0 <= rad <= Pi
    ensures shift == 0 ==> rad == 0.0
    ensures shift == 100 ==> rad == Pi
    ensures rad * 100.0 == shift as real * Pi
  {
    (shift as real / 100.0) * Pi
  }

  /** A larger shift never gives a smaller phase. */
  lemma PhaseMonotone(a: Slider, b: Slider)
    requires a <= b
    ensures PhaseRad(a) <= PhaseRad(b)
  {
  }

  datatype Readout = Readout(phaseRad: real, interference: real, intensity: real, logicBit: int)

  /** The gate's readout: the intensity is the square of the interference
      amplitude, hence never negative whatever the cosine returns, and the
      logic bit is 1 exactly when the intensity exceeds 0.8. */
  function Read(cos: real -> real, shift: Slider): (r: Readout)
    ensures r.phaseRad == PhaseRad(shift)
    ensures r.interference == cos(r.phaseRad / 2.0)
    ensures r.intensity == r.interference * r.interference
    ensures r.intensity >= 0.0
    ensures r.logicBit == 0 || r.logicBit == 1
    ensures r.logicBit == 1 <==> r.intensity > LogicThreshold
  {
    var phaseRad := PhaseRad(shift);
    var interference := cos(phaseRad / 2.0);
    var outputIntensity := interference * interference;
    var logicState := if outputIntensity > 0.8 then 1 else 0;
    Readout(phaseRad, interference, outputIntensity, logicState)
  }

  /** With a cosine bounded by [-1, 1], the intensity is at most 1. */
  lemma IntensityAtMostOne(cos: real -> real, shift: Slider)
    requires forall x :: -1.0 <= cos(x) <= 1.0
    ensures Read(cos, shift).intensity <= 1.0
  {
    var a := cos(PhaseRad(shift) / 2.0);
    if a >= 0.0 {
      assert a * a <= 1.0 * a;
    } else {
      assert a * a <= (-1.0) * a;
    }
  }

  /** Aligned arms (slider 0, so cos 0 = 1) give full intensity and a 1. */
  lemma AlignedReadsOne(cos: real -> real)
    requires cos(0.0) == 1.0
    ensures Read(cos, 0).intensity == 1.0
    ensures Read(cos, 0).logicBit == 1
  {
  }

  /** Opposite arms (slider 100) give near-darkness and a 0.  The cosine of
      pi/2 is only close to 0 (`Math.cos(Math.PI / 2)` is about 6e-17), so
      the hypothesis allows any value within 0.1 of it. */
  lemma OppositeReadsZero(cos: real -> real)
    requires -0.1 <= cos(Pi / 2.0) <= 0.1
    ensures Read(cos, 100).intensity <= 0.01
    ensures Read(cos, 100).logicBit == 0
    ensures !Display(cos, 100).detectorLit
  {
    assert PhaseRad(100) == Pi;
    var a := cos(PhaseRad(100) / 2.0);
    if a >= 0.0 {
      assert a * a <= 0.1 * a;
    } else {
      assert a * a <= (-0.1) * a;
    }
  }

  /** What the page shows for a readout. */
  datatype View = View(shifterHighlighted: bool, detectorLit: bool, detectorOpacity: real,
                       logicBit: int, throughputTbps: real)

  /** The displayed state: the phase-shifter node is highlighted exactly when
      the slider passes 10; the detector is lit exactly above intensity 0.1
      and its style opacity is 0.3 plus the intensity; the throughput is 128
      times the intensity.  A logic 1 therefore always comes with a lit
      detector and a throughput above 102.4. */
  function Display(cos: real -> real, shift: Slider): (v: View)
    ensures v.shifterHighlighted <==> shift > 10
    ensures v.logicBit == Read(cos, shift).logicBit
    ensures v.throughputTbps == PeakThroughput * Read(cos, shift).intensity
    ensures v.detectorLit <==> Read(cos, shift).intensity > LitThreshold
    ensures v.detectorOpacity == 0.3 + Read(cos, shift).intensity
    ensures v.logicBit == 1 ==> v.detectorLit && v.throughputTbps > 102.4
    ensures v.detectorLit <==> v.throughputTbps > 12.8
    ensures v.throughputTbps >= 0.0 && v.detectorOpacity >= 0.3
  {
    var r := Read(cos, shift);
    View(shift > 10, r.intensity > LitThreshold, 0.3 + r.intensity,
         r.logicBit, r.intensity * PeakThroughput)
  }

  /** The readout's logic 1 implies a lit detector, for every cosine. */
  lemma LogicOneLightsDetector(cos: real -> real, shift: Slider)
    requires Read(cos, shift).logicBit == 1
    ensures Display(cos, shift).detectorLit
    ensures Display(cos, shift).throughputTbps > 102.4
  {
  }
}

=== FILE: js.dfy ===
/** The few pieces of the JavaScript runtime the components rely on, stated
    over Dafny's unbounded `int` and exact `real`.  Doubles are modelled as
    reals: rounding is not modelled. */
module Js {

  /** A value `Math.random()` can return. */
  type Unit = u: real | 0.0 <= u < 1.0

  /** The value of a range input with min 0, max 100 and the default step
      of 1. */
  type Slider = x: int | 0 <= x <= 100

  /** `Math.PI`, written as the decimal the runtime prints for it. */
  const Pi: real := 3.141592653589793

  function Max(a: real, b: real): real { if a >= b then a else b }

  function Min(a: real, b: real): real { if a <= b then a else b }

  function Abs(n: int): nat { if n < 0 then -n else n }

  /** The characters `String.prototype.trim` strips: the WhiteSpace and
      LineTerminator productions of ECMAScript (section 12.2 and 12.3 of
      ECMA-262), including every space separator. */
  predicate IsSpace(c: char) {
    || c == '\t' || c == '\n' || c == '\U{000B}' || c == '\U{000C}' || c == '\r'
    || c == ' ' || c == '\U{00A0}' || c == '\U{1680}'
    || ('\U{2000}' <= c <= '\U{200A}')
    || c == '\U{2028}' || c == '\U{2029}' || c == '\U{202F}' || c == '\U{205F}'
    || c == '\U{3000}' || c == '\U{FEFF}'
  }

  /** Every character of `s` is white space (the empty string included). */
  predicate Blank(s: string) {
    forall i :: 0 <= i < |s| ==> IsSpace(s[i])
  }

  /** Leading white space removed: the result is a suffix of `s` that does
      not start with white space, and what was dropped is all white space. */
  function TrimStart(s: string): (r: string)
    ensures |r| <= |s| && r == s[|s| - |r|..]
    ensures |r| > 0 ==> !IsSpace(r[0])
    ensures Blank(s[..|s| - |r|])
    decreases |s|
  {
    if |s| > 0 && IsSpace(s[0]) then
      var rest := TrimStart(s[1..]);
      assert s[1..][..|s| - 1 - |rest|] == s[1..|s| - |rest|];
      rest
    else s
  }

  /** Trailing white space removed: the result is a prefix of `s` that does
      not end with white space, and what was dropped is all white space. */
  function TrimEnd(s: string): (r: string)
    ensures |r| <= |s| && r == s[..|r|]
    ensures |r| > 0 ==> !IsSpace(r[|r| - 1])
    ensures Blank(s[|r|..])
    decreases |s|
  {
    if |s| > 0 && IsSpace(s[|s| - 1]) then
      var rest := TrimEnd(s[..|s| - 1]);
      assert s[..|s| - 1][|rest|..] == s[|rest|..|s| - 1];
      rest
    else s
  }

  /** `s.trim()`. */
  function Trim(s: string): string {
    TrimEnd(TrimStart(s))
  }

  /** `s.trim()` is falsy (the empty string) exactly when `s` is blank. */
  lemma TrimEmptyIffBlank(s: string)
    ensures Trim(s) == "" <==> Blank(s)
  {
    var t := TrimStart(s);
    if Trim(s) == "" {
      assert t[0..] == t;
      assert s[..|s| - |t|] == s;
    } else {
      var r := Trim(s);
      assert r == t[..|r|] && |r| > 0;
      assert t[|r| - 1] == r[|r| - 1];
      assert t == s[|s| - |t|..];
      assert s[|s| - |t| + |r| - 1] == t[|r| - 1];
    }
  }
}

=== FILE: lorenz.dfy ===
/** The kernel cinematic (KernelCinematic.tsx): an explicit Euler
    integration of the Lorenz system, five steps per frame, whose points are
    kept in a bounded first-in first-out buffer of at most 3000 points.  The
    rotation and perspective projection are left out. */
module Lorenz {

  const Sigma: real := 10.0
  const Rho: real := 28.0
  const Beta: real := 8.0 / 3.0
  const Dt: real := 0.01
  const StepsPerFrame: nat := 5
  const MaxPoints: nat := 3000
  const RotationStep: real := 0.005

  datatype Vec3 = Vec3(x: real, y: real, z: real)

  /** A buffered point: a position and its stroke hue. */
  datatype Point = Point(x: real, y: real, z: real, hue: real)

  /** The integrator's starting position. */
  const Start := Vec3(0.1, 0.0, 0.0)

  /** The Lorenz vector field, the right-hand side of the ODE being
      integrated. */
  function Field(p: Vec3): Vec3 {
    Vec3(Sigma * (p.y - p.x), p.x * (Rho - p.z) - p.y, p.x * p.y - Beta * p.z)
  }

  /** One integration step as the loop body writes it: the three increments
      are all computed from the pre-step position, then applied.  This is
      exactly the explicit Euler step p + dt * Field(p). */
  function EulerStep(p: Vec3): (q: Vec3)
    ensures q.x == p.x + Dt * Field(p).x
    ensures q.y == p.y + Dt * Field(p).y
    ensures q.z == p.z + Dt * Field(p).z
  {
    var dx := Sigma * (p.y - p.x) * Dt;
    var dy := (p.x * (Rho - p.z) - p.y) * Dt;
    var dz := (p.x * p.y - Beta * p.z) * Dt;
    Vec3(p.x + dx, p.y + dy, p.z + dz)
  }

  /** The origin is a fixed point of the step, as it is of the field. */
  lemma OriginIsFixed()
    ensures EulerStep(Vec3(0.0, 0.0, 0.0)) == Vec3(0.0, 0.0, 0.0)
  {
  }

  /** The point pushed for a position: hue 2z + 180. */
  function Emit(p: Vec3): Point {
    Point(p.x, p.y, p.z, p.z * 2.0 + 180.0)
  }

  /** A point whose hue is the one its depth dictates. */
  predicate HueMatchesDepth(pt: Point) {
    pt.hue == 2.0 * pt.z + 180.0
  }

  // The buffer bookkeeping below does not depend on the integrator's
  // arithmetic, so it is stated for any `step`; the cinematic runs it with
  // `EulerStep`.

  /** The position after `k` steps. */
  function Iterate(step: Vec3 -> Vec3, p: Vec3, k: nat): Vec3
    decreases k
  {
    if k == 0 then p else Iterate(step, step(p), k - 1)
  }

  /** The `k` points pushed while taking `k` steps from `p`: one point per
      step, each emitted after its step, each with the hue of its depth. */
  function Trajectory(step: Vec3 -> Vec3, p: Vec3, k: nat): (pts: seq<Point>)
    ensures |pts| == k
    ensures forall i :: 0 <= i < |pts| ==> HueMatchesDepth(pts[i])
  {
    seq(k, i requires 0 <= i < k => Emit(Iterate(step, p, i + 1)))
  }

  /** Taking `a` then `b` steps is taking `a + b` steps. */
  lemma {:induction false} IterateAdd(step: Vec3 -> Vec3, p: Vec3, a: nat, b: nat)
    ensures Iterate(step, Iterate(step, p, a), b) == Iterate(step, p, a + b)
    decreases a
  {
    if a > 0 {
      IterateAdd(step, step(p), a - 1, b);
    }
  }

  /** The trajectory of `a + b` steps is that of `a` steps followed by that
      of `b` steps from where the first `a` ended. */
  lemma TrajectoryAdd(step: Vec3 -> Vec3, p: Vec3, a: nat, b: nat)
    ensures Trajectory(step, p, a + b)
         == Trajectory(step, p, a) + Trajectory(step, Iterate(step, p, a), b)
  {
    var whole := Trajectory(step, p, a + b);
    var tail := Trajectory(step, Iterate(step, p, a), b);
    forall i | a <= i < a + b
      ensures whole[i] == tail[i - a]
    {
      IterateAdd(step, p, a, i - a + 1);
    }
  }

  datatype Kernel = Kernel(pos: Vec3, points: seq<Point>, rotation: real)

  /** The splice that keeps the buffer bounded: drop the five oldest points
      once there are more than 3000. */
  function Evict(points: seq<Point>): seq<Point> {
    if |points| > MaxPoints then points[StepsPerFrame..] else points
  }

  /** One frame: five steps, each pushing a point; then the eviction; the
      rotation grows by 0.005. */
  function Frame(step: Vec3 -> Vec3, k: Kernel): Kernel {
    var points := k.points + Trajectory(step, k.pos, StepsPerFrame);
    Kernel(Iterate(step, k.pos, StepsPerFrame), Evict(points), k.rotation + RotationStep)
  }

  /** A frame leaves the old buffer plus the five new points with either
      nothing or exactly the five oldest removed, the latter exactly when
      the grown buffer exceeds 3000.  The buffer is never empty afterwards,
      it never outgrows 3000 if it did not already, and every hue still
      matches its depth. */
  lemma FrameSplices(step: Vec3 -> Vec3, k: Kernel)
    ensures var grown := k.points + Trajectory(step, k.pos, StepsPerFrame);
      var r := Frame(step, k);
      && (r.points == grown || r.points == grown[StepsPerFrame..])
      && (r.points == grown[StepsPerFrame..] <==> |grown| > MaxPoints)
      && |r.points| > 0
      && (|k.points| <= MaxPoints ==> |r.points| <= MaxPoints)
      && ((forall i :: 0 <= i < |k.points| ==> HueMatchesDepth(k.points[i])) ==>
          forall i :: 0 <= i < |r.points| ==> HueMatchesDepth(r.points[i]))
  {
    var grown := k.points + Trajectory(step, k.pos, StepsPerFrame);
    if |grown| > MaxPoints {
      assert grown[StepsPerFrame..] != grown;
    }
  }

  /** The state after `n` frames from an empty buffer at position `p`. */
  function Frames(step: Vec3 -> Vec3, p: Vec3, n: nat): Kernel {
    if n == 0 then Kernel(p, [], 0.0) else Frame(step, Frames(step, p, n - 1))
  }

  /** The cinematic after `n` frames: Euler steps from (0.1, 0, 0). */
  function Cinematic(n: nat): Kernel {
    Frames(EulerStep, Start, n)
  }

  function MinNat(a: nat, b: nat): nat { if a <= b then a else b }

  /** The last `k` elements of `s`. */
  function Recent(s: seq<Point>, k: nat): seq<Point>
    requires k <= |s|
  {
    s[|s| - k..]
  }

  /** One frame's push and splice, on a buffer holding the last `kept`
      generated points: afterwards it holds the last min(kept + 5, 3000). */
  lemma EvictKeepsRecent(before: seq<Point>, newest: seq<Point>, kept: nat)
    requires |newest| == StepsPerFrame
    requires kept <= |before| && kept <= MaxPoints
    requires kept + StepsPerFrame > MaxPoints ==> kept == MaxPoints
    ensures Evict(Recent(before, kept) + newest)
         == Recent(before + newest, MinNat(kept + StepsPerFrame, MaxPoints))
  {
    var all := before + newest;
    assert Recent(before, kept) + newest == all[|before| - kept..];
    if kept + StepsPerFrame > MaxPoints {
      assert all[|before| - kept..][StepsPerFrame..] == all[|before| - kept + StepsPerFrame..];
    }
  }

  /** After `n` frames the integrator has taken 5n steps and the rotation is
      0.005 n. */
  lemma {:induction false} FramesClock(step: Vec3 -> Vec3, p: Vec3, n: nat)
    ensures Frames(step, p, n).pos == Iterate(step, p, 5 * n)
    ensures Frames(step, p, n).rotation == RotationStep * n as real
  {
    if n > 0 {
      FramesClock(step, p, n - 1);
      IterateAdd(step, p, 5 * (n - 1), StepsPerFrame);
    }
  }

  /** The buffer always holds whole frames: below the cap it grows by five
      points a frame, and it reaches the cap exactly. */
  lemma WholeFramesKept(n: nat)
    requires n > 0
    ensures var kept := MinNat(5 * (n - 1), MaxPoints);
      && (kept + StepsPerFrame > MaxPoints ==> kept == MaxPoints)
      && MinNat(kept + StepsPerFrame, MaxPoints) == MinNat(5 * n, MaxPoints)
  {
    if 5 * (n - 1) < MaxPoints {
      assert n - 1 < 600;
      assert 5 * (n - 1) <= 2995;
    }
  }

  /** The buffer after `n` frames is exactly the most recent min(5n, 3000)
      points of the whole trajectory from the starting position, in
      generation order: eviction only ever removes the oldest points. */
  lemma {:induction false} FramesKeepRecentPoints(step: Vec3 -> Vec3, p: Vec3, n: nat)
    ensures Frames(step, p, n).points
         == Recent(Trajectory(step, p, 5 * n), MinNat(5 * n, MaxPoints))
  {
    if n > 0 {
      FramesKeepRecentPoints(step, p, n - 1);
      FrameAppendsNewest(step, p, n);
      WholeFramesKept(n);
      EvictKeepsRecent(Trajectory(step, p, 5 * (n - 1)),
                       Trajectory(step, Iterate(step, p, 5 * (n - 1)), StepsPerFrame),
                       MinNat(5 * (n - 1), MaxPoints));
      TrajectoryAdd(step, p, 5 * (n - 1), StepsPerFrame);
    }
  }

  /** Frame `n` pushes the five points generated from where frame `n - 1`
      left the integrator, then splices. */
  lemma FrameAppendsNewest(step: Vec3 -> Vec3, p: Vec3, n: nat)
    requires n > 0
    ensures Frames(step, p, n).points
         == Evict(Frames(step, p, n - 1).points
                  + Trajectory(step, Iterate(step, p, 5 * (n - 1)), StepsPerFrame))
  {
    var prev := Frames(step, p, n - 1);
    assert prev.pos == Iterate(step, p, 5 * (n - 1)) by {
      FramesClock(step, p, n - 1);
    }
    assert Frames(step, p, n) == Frame(step, prev);
  }

  /** The cinematic's buffer after `n` frames holds min(5n, 3000) points,
      never more than 3000, and they are the latest points of the Euler
      trajectory from (0.1, 0, 0), each with the hue of its depth. */
  lemma CinematicBuffer(n: nat)
    ensures |Cinematic(n).points| == MinNat(5 * n, MaxPoints)
    ensures |Cinematic(n).points| <= MaxPoints
    ensures Cinematic(n).points
         == Recent(Trajectory(EulerStep, Start, 5 * n), MinNat(5 * n, MaxPoints))
    ensures Cinematic(n).rotation == RotationStep * n as real
    ensures forall i :: 0 <= i < |Cinematic(n).points| ==> HueMatchesDepth(Cinematic(n).points[i])
  {
    FramesKeepRecentPoints(EulerStep, Start, n);
    FramesClock(EulerStep, Start, n);
  }

  /** The head lookup `points[points.length - 1]`, defined on a non-empty
      buffer. */
  function Head(k: Kernel): Point
    requires |k.points| > 0
  {
    k.points[|k.points| - 1]
  }

  /** After at least one frame the head is defined, and it is the newest
      point of the trajectory. */
  lemma HeadIsNewest(n: nat)
    requires n > 0
    ensures |Cinematic(n).points| > 0
    ensures Head(Cinematic(n)) == Trajectory(EulerStep, Start, 5 * n)[5 * n - 1]
  {
    FramesKeepRecentPoints(EulerStep, Start, n);
  }
}

=== FILE: monolith.dfy ===
/** The hero overlay (MonolithUI.tsx): a counter that grows by a random
    amount on every tick, the per-sector copy, and the metric shown for the
    active sector.  The waveform drawing is left out; its phase clock is
    kept. */
module Monolith {
  import opened Js
  import opened Types

  /** Largest amount one counter tick can add: the floor of a draw times
      1024. */
  const MaxIncrement: int := 1023

  /** One counter tick with draw `u`: the counter grows by an integer in
      [0, 1023]. */
  function CounterTick(counter: int, u: Unit): (r: int)
    ensures counter <= r <= counter + MaxIncrement
  {
    counter + (u * 1024.0).Floor
  }

  /** The counter after one tick per draw, starting from 0. */
  function Counter(draws: seq<Unit>): int {
    if |draws| == 0 then 0 else CounterTick(Counter(draws[..|draws| - 1]), draws[|draws| - 1])
  }

  /** After `n` ticks the counter lies in [0, 1023 n]. */
  lemma {:induction false} CounterBounds(draws: seq<Unit>)
    ensures 0 <= Counter(draws) <= MaxIncrement * |draws|
  {
    if |draws| > 0 {
      CounterBounds(draws[..|draws| - 1]);
    }
  }

  /** The counter never goes down: any earlier reading is at most any later
      one. */
  lemma {:induction false} CounterMonotone(draws: seq<Unit>, k: nat)
    requires k <= |draws|
    ensures Counter(draws[..k]) <= Counter(draws)
    decreases |draws|
  {
    if k < |draws| {
      var shorter := draws[..|draws| - 1];
      assert shorter[..k] == draws[..k];
      CounterMonotone(shorter, k);
    } else {
      assert draws[..k] == draws;
    }
  }

  /** The copy shown for a sector.  `metricValue` is absent where the object
      literal has no such field. */
  datatype SectorContent = SectorContent(title: string, subtext: string, metricLabel: string,
                                         metricValue: Option<string>, colour: string)

  /** The per-sector copy. */
  const Content: map<Sector, SectorContent> := map[
    HYPERION := SectorContent("THE FIRST STAR", "NET ZERO. A-NEUTRONIC. INFINITE.",
                              "JOULES HARVESTED", None, "text-amber-400"),
    SENTINEL := SectorContent("THINKING AT LIGHT SPEED", "NO SILICON. NO HEAT. PURE PHOTON LOGIC.",
                              "LATENCY (ms)", Some("0.00000"), "text-violet-400"),
    KERNEL := SectorContent("THE CODE OF NATURE", "SYMPLECTIC PHYSICS. SELF-HEALING. SOVEREIGN.",
                            "SYSTEM ENTROPY", Some("NEGATIVE"), "text-cyan-400")
  ]

  /** Every sector has its copy, so the lookup for the active sector never
      misses. */
  lemma ContentIsTotal(s: Sector)
    ensures s in Content
    ensures Content[s].title != ""
  {
    match s
    case HYPERION =>
    case SENTINEL =>
    case KERNEL =>
  }

  /** `content[activeSector]`. */
  function ActiveContent(s: Sector): (c: SectorContent)
    ensures s in Content && c == Content[s]
  {
    ContentIsTotal(s);
    Content[s]
  }

  /** The metric text: the sector's fixed value when it has a non-empty one
      (the `||` treats a missing or empty string as false), otherwise the
      formatted counter.  HYPERION therefore shows the counter; SENTINEL and
      KERNEL show their fixed strings whatever the counter reads. */
  function MetricText(s: Sector, counter: int, format: int -> string): (t: string)
    ensures s == HYPERION ==> t == format(counter)
    ensures s == SENTINEL ==> t == "0.00000"
    ensures s == KERNEL ==> t == "NEGATIVE"
  {
    var fixed := ActiveContent(s).metricValue;
    if fixed.Some? && fixed.value != "" then fixed.value else format(counter)
  }

  /** Only HYPERION's metric moves with the counter. */
  lemma MetricFollowsCounterOnlyOnHyperion(s: Sector, c1: int, c2: int, format: int -> string)
    requires format(c1) != format(c2)
    ensures MetricText(s, c1, format) != MetricText(s, c2, format) <==> s == HYPERION
  {
  }

  /** The indicator dot's class: amber for HYPERION, violet for SENTINEL,
      cyan otherwise; always the same hue and shade as the sector's text
      colour, as a background instead of a text class. */
  function DotClass(s: Sector): (c: string)
    ensures |c| > 3 && c[..3] == "bg-"
    ensures c[3..] == ActiveContent(s).colour[5..]
  {
    if s == HYPERION then "bg-amber-400" else if s == SENTINEL then "bg-violet-400" else "bg-cyan-400"
  }

  /** The phase of the waveform after `n` frames. */
  function WavePhase(n: nat): real {
    if n == 0 then 0.0 else WavePhase(n - 1) + 0.2
  }

  /** The waveform phase grows by 0.2 per frame. */
  lemma {:induction false} WavePhaseLinear(n: nat)
    ensures WavePhase(n) == 0.2 * n as real
  {
    if n > 0 {
      WavePhaseLinear(n - 1);
    }
  }
}

=== FILE: terminal.dfy ===
/** The chat terminal (Terminal.tsx): the submit guard, the disabled
    conditions of its two controls, and how each message is labelled and
    aligned.  Sending is the parent's callback; the model records what was
    passed to it. */
module Terminal {
  import opened Js
  import opened Types

  /** The result of a submit: the texts handed to the send callback, in
      order, and the input field's new value. */
  datatype SubmitOutcome = SubmitOutcome(sent: seq<string>, input: string)

  /** The submit guard: a blank input, or any input while a reply is
      streaming, sends nothing and leaves the field alone; otherwise the
      input, untrimmed, is sent once and the field is cleared. */
  function Submit(input: string, streaming: bool): (o: SubmitOutcome)
    ensures !Blank(input) && !streaming ==> o.sent == [input] && o.input == ""
    ensures Blank(input) || streaming ==> o.sent == [] && o.input == input
  {
    TrimEmptyIffBlank(input);
    if Trim(input) == "" || streaming then SubmitOutcome([], input)
    else SubmitOutcome([input], "")
  }

  /** Pressing enter twice sends at most once: the first accepted submit
      clears the field, and the cleared field is blank. */
  lemma SecondSubmitSendsNothing(input: string, streaming: bool)
    ensures Submit(Submit(input, streaming).input, streaming).sent == []
         || Submit(input, streaming).sent == []
  {
    var first := Submit(input, streaming);
    if first.sent != [] {
      assert Blank(first.input);
    }
  }

  /** The disabled flags of the text field and the send button. */
  datatype Controls = Controls(inputDisabled: bool, sendDisabled: bool)

  /** The text field is disabled while streaming; the send button exactly
      when the submit guard would reject. */
  function ControlsFor(input: string, streaming: bool): (c: Controls)
    ensures c.inputDisabled <==> streaming
    ensures c.sendDisabled <==> Submit(input, streaming).sent == []
    ensures !c.sendDisabled <==> !Blank(input) && !streaming
  {
    TrimEmptyIffBlank(input);
    Controls(streaming, Trim(input) == "" || streaming)
  }

  /** How one message is drawn. */
  datatype Bubble = Bubble(caption: string, rightAligned: bool, content: string)

  /** A message's bubble: only the model's replies are captioned 'ONIX AI'
      (user and system messages alike read 'CITIZEN'), and only the user's
      own messages sit on the right.  The content is shown verbatim. */
  function BubbleFor(m: Message): (b: Bubble)
    ensures b.caption == "ONIX AI" <==> m.role == Model
    ensures b.caption == "CITIZEN" <==> m.role != Model
    ensures b.rightAligned <==> m.role == User
    ensures b.content == m.content
  {
    Bubble(if m.role == Model then "ONIX AI" else "CITIZEN", m.role == User, m.content)
  }

  /** A system message looks like a citizen's by caption but sits on the
      left like the model's. */
  lemma SystemMessagesMixedStyle(content: string, timestamp: int)
    ensures BubbleFor(Message(System, content, timestamp)).caption
         == BubbleFor(Message(User, content, timestamp)).caption
    ensures BubbleFor(Message(System, content, timestamp)).rightAligned
         != BubbleFor(Message(User, content, timestamp)).rightAligned
  {
  }

  /** The message area: the welcome panel, and one bubble per message. */
  datatype Transcript = Transcript(welcome: bool, bubbles: seq<Bubble>)

  /** The welcome panel is shown exactly when there are no messages; the
      bubbles follow the messages one for one, in order. */
  function TranscriptFor(messages: seq<Message>): (t: Transcript)
    ensures t.welcome <==> |messages| == 0
    ensures |t.bubbles| == |messages|
    ensures forall i :: 0 <= i < |messages| ==> t.bubbles[i] == BubbleFor(messages[i])
  {
    Transcript(|messages| == 0, seq(|messages|, i requires 0 <= i < |messages| => BubbleFor(messages[i])))
  }
}

=== FILE: torus.dfy ===
/** The entropy torus (TorusViz.tsx): 2000 particles on a torus whose
    per-particle jitter is eased toward a target set by the input state, and
    two rotation accumulators shared by all particles.  Projection and
    drawing are left out; the size and alpha floors are kept. */
module TorusViz {
  import opened Js

  const ParticleCount: nat := 2000
  const MinorRadius: real := 35.0
  /** Share of the remaining distance to the target covered each frame. */
  const Easing: real := 0.05

  datatype Particle = Particle(theta: real, phi: real, speedTheta: real, speedPhi: real,
                               baseR: real, jitter: real)

  datatype Torus = Torus(particles: seq<Particle>, rotX: real, rotY: real)

  /** The props the loop reads each frame through its ref. */
  datatype Props = Props(entropy: real, inputActive: bool)

  /** What a freshly built particle looks like: angles in [0, 2 pi), drift
      rates in [-0.01, 0.01), the minor radius and no jitter. */
  predicate Fresh(p: Particle) {
    && 0.0 <= p.theta < 2.0 * Pi && 0.0 <= p.phi < 2.0 * Pi
    && -0.01 <= p.speedTheta < 0.01 && -0.01 <= p.speedPhi < 0.01
    && p.baseR == MinorRadius && p.jitter == 0.0
  }

  /** A particle from its four `Math.random()` draws, in call order. */
  function NewParticle(a: Unit, b: Unit, c: Unit, d: Unit): (p: Particle)
    ensures Fresh(p)
  {
    Particle(a * Pi * 2.0, b * Pi * 2.0, (c - 0.5) * 0.02, (d - 0.5) * 0.02, MinorRadius, 0.0)
  }

  /** Particle `i`: it uses draws 4i to 4i + 3 of the random stream. */
  function ParticleAt(rand: nat -> Unit, i: nat): (p: Particle)
    ensures Fresh(p)
  {
    NewParticle(rand(4 * i), rand(4 * i + 1), rand(4 * i + 2), rand(4 * i + 3))
  }

  /** The particle array, built once: exactly 2000 fresh particles, with
      both rotations at 0. */
  function Spawn(rand: nat -> Unit): (t: Torus)
    ensures |t.particles| == ParticleCount
    ensures t.rotX == 0.0 && t.rotY == 0.0
    ensures forall i :: 0 <= i < |t.particles| ==> Fresh(t.particles[i])
  {
    var ps := seq(ParticleCount, i requires 0 <= i < ParticleCount => ParticleAt(rand, i));
    Torus(ps, 0.0, 0.0)
  }

  /** Rotation speed: the torus spins faster while the user is typing,
      0.03 against 0.008. */
  function SpinSpeed(active: bool): (s: real)
    ensures s > 0.0
    ensures active ==> s == 0.03
    ensures !active ==> s == 0.008
  {
    if active then 0.03 else 0.008
  }

  /** Jitter target: a fixed 0.8 while the user is typing, whatever the
      entropy; otherwise 12 times the entropy, so non-negative entropy
      gives a non-negative target. */
  function TargetJitter(props: Props): (j: real)
    ensures props.inputActive ==> j == 0.8
    ensures !props.inputActive ==> j == 12.0 * props.entropy
    ensures props.entropy >= 0.0 ==> j >= 0.0
  {
    if props.inputActive then 0.8 else props.entropy * 12.0
  }

  /** One easing step: the distance to the target shrinks by exactly 5 % and
      the value moves toward the target without passing it. */
  function Smooth(jitter: real, target: real): (r: real)
    ensures r - target == 0.95 * (jitter - target)
    ensures jitter <= target ==> jitter <= r <= target
    ensures target <= jitter ==> target <= r <= jitter
  {
    jitter + (target - jitter) * Easing
  }

  /** `n` easing steps toward a fixed target. */
  function SmoothN(jitter: real, target: real, n: nat): real {
    if n == 0 then jitter else Smooth(SmoothN(jitter, target, n - 1), target)
  }

  /** 0.95 to the power `n`. */
  function Decay(n: nat): (d: real)
    ensures 0.0 < d <= 1.0
  {
    if n == 0 then 1.0 else 0.95 * Decay(n - 1)
  }

  /** Closed form of the easing: after `n` frames the distance to the target
      is 0.95^n of the initial distance. */
  lemma {:induction false} SmoothNClosedForm(jitter: real, target: real, n: nat)
    ensures target - SmoothN(jitter, target, n) == Decay(n) * (target - jitter)
  {
    if n > 0 {
      SmoothNClosedForm(jitter, target, n - 1);
      calc {
        target - SmoothN(jitter, target, n);
        0.95 * (target - SmoothN(jitter, target, n - 1));
        { assert target - SmoothN(jitter, target, n - 1) == Decay(n - 1) * (target - jitter); }
        0.95 * (Decay(n - 1) * (target - jitter));
        (0.95 * Decay(n - 1)) * (target - jitter);
      }
    }
  }

  /** Easing from below never overshoots and never moves away: starting at
      or under a fixed target, the value stays in [start, target] and does
      not decrease from one frame to the next. */
  lemma {:induction false} SmoothNRisesToTarget(jitter: real, target: real, n: nat)
    requires jitter <= target
    ensures jitter <= SmoothN(jitter, target, n) <= target
    ensures SmoothN(jitter, target, n) <= SmoothN(jitter, target, n + 1)
  {
    if n > 0 {
      SmoothNRisesToTarget(jitter, target, n - 1);
    }
  }

  /** One particle's update: both angles drift by their own rates and the
      jitter eases toward the target; nothing else changes. */
  function Advance(p: Particle, target: real): Particle {
    p.(theta := p.theta + p.speedTheta, phi := p.phi + p.speedPhi,
       jitter := Smooth(p.jitter, target))
  }

  /** One frame.  rotY gains the spin speed and rotX half of it, so rotY
      gains twice what rotX gains.  No particle is added or removed; each
      drifts both angles by its own rates, keeps those rates and its radius,
      and eases its jitter toward the target. */
  function Frame(t: Torus, props: Props): (r: Torus)
    ensures |r.particles| == |t.particles|
    ensures r.rotY == t.rotY + SpinSpeed(props.inputActive)
    ensures r.rotX == t.rotX + SpinSpeed(props.inputActive) / 2.0
    ensures r.rotY - 2.0 * r.rotX == t.rotY - 2.0 * t.rotX
    ensures forall i :: 0 <= i < |r.particles| ==>
      && r.particles[i].theta == t.particles[i].theta + t.particles[i].speedTheta
      && r.particles[i].phi == t.particles[i].phi + t.particles[i].speedPhi
      && r.particles[i].jitter == Smooth(t.particles[i].jitter, TargetJitter(props))
      && r.particles[i].speedTheta == t.particles[i].speedTheta
      && r.particles[i].speedPhi == t.particles[i].speedPhi
      && r.particles[i].baseR == t.particles[i].baseR
  {
    var spinSpeed := SpinSpeed(props.inputActive);
    var targetJitter := TargetJitter(props);
    var ps := seq(|t.particles|, i requires 0 <= i < |t.particles| => Advance(t.particles[i], targetJitter));
    Torus(ps, t.rotX + spinSpeed * 0.5, t.rotY + spinSpeed)
  }

  /** The frames the loop renders, one per element of `frames`, in order. */
  function Run(t: Torus, frames: seq<Props>): Torus {
    if |frames| == 0 then t else Frame(Run(t, frames[..|frames| - 1]), frames[|frames| - 1])
  }

  /** However many frames run, the particle count stays 2000 and rotY is
      exactly twice rotX. */
  lemma {:induction false} RunKeepsShape(rand: nat -> Unit, frames: seq<Props>)
    ensures |Run(Spawn(rand), frames).particles| == ParticleCount
    ensures Run(Spawn(rand), frames).rotY == 2.0 * Run(Spawn(rand), frames).rotX
  {
    if |frames| > 0 {
      RunKeepsShape(rand, frames[..|frames| - 1]);
    }
  }

  /** Under a constant target, every particle's jitter after `n` frames is the
      `n`-fold easing of 0 toward it; for a non-negative target it therefore
      lies in [0, target] and never decreases. */
  lemma {:induction false} RunJitterTracksTarget(rand: nat -> Unit, frames: seq<Props>, target: real)
    requires forall k :: 0 <= k < |frames| ==> TargetJitter(frames[k]) == target
    ensures |Run(Spawn(rand), frames).particles| == ParticleCount
    ensures forall i :: 0 <= i < ParticleCount ==>
      Run(Spawn(rand), frames).particles[i].jitter == SmoothN(0.0, target, |frames|)
  {
    RunKeepsShape(rand, frames);
    if |frames| > 0 {
      RunJitterTracksTarget(rand, frames[..|frames| - 1], target);
    }
  }

  /** The jitter of any particle under a constant non-negative target stays
      in [0, target]. */
  lemma RunJitterBounded(rand: nat -> Unit, frames: seq<Props>, target: real, i: nat)
    requires target >= 0.0
    requires forall k :: 0 <= k < |frames| ==> TargetJitter(frames[k]) == target
    requires i < ParticleCount
    ensures i < |Run(Spawn(rand), frames).particles|
    ensures 0.0 <= Run(Spawn(rand), frames).particles[i].jitter <= target
  {
    RunJitterTracksTarget(rand, frames, target);
    SmoothNRisesToTarget(0.0, target, |frames|);
  }

  /** Point size on screen, floored at 0.2. */
  function PointSize(scale: real): (size: real)
    ensures size >= 0.2 && size >= 1.8 * scale
    ensures size == 0.2 || size == 1.8 * scale
  {
    Max(0.2, 1.8 * scale)
  }

  /** Point alpha from depth, floored at 0.05. */
  function PointAlpha(z: real): (alpha: real)
    ensures alpha >= 0.05 && alpha >= (z + 60.0) / 120.0
    ensures alpha == 0.05 || alpha == (z + 60.0) / 120.0
  {
    Max(0.05, (z + 60.0) / 120.0)
  }
}

=== FILE: types.dfy ===
/** The shared records of the dashboard (types.ts). */
module Types {

  datatype Option<T> = None | Some(value: T)

  /** The three showcased technologies; the hero section cycles through them. */
  datatype Sector = HYPERION | SENTINEL | KERNEL

  /** Who wrote a chat message. */
  datatype Role = User | Model | System

  datatype Message = Message(role: Role, content: string, timestamp: int)

  /** The reactor's four read-only outputs.  `coreTemp` is always the floor
      of a real, so it is kept as an integer. */
  datatype HyperionMetrics = HyperionMetrics(
    plasmaStability: real,
    outputMW: real,
    coreTemp: int,
    containmentField: real)
}

=== FILE: typewriter.dfy ===
/** The landing page's typewriter (LandingPage.tsx): a timer that shows
    ever longer prefixes of a fixed line and stops itself once the whole
    line is shown.  The effect's local counter `i` and the displayed text are
    the state; a tick is one interval callback. */
module Typewriter {

  /** The line the landing page types out. */
  const FullText: string := "CONNECTING TO PUBLIC GRID..."

  datatype Typing = Typing(i: nat, text: string, running: bool)

  /** The state when the effect starts: nothing shown, counter at 0. */
  const Start := Typing(0, "", true)

  /** `full.slice(0, i)`: the first `i` characters, or all of them when `i`
      runs past the end. */
  function Slice(full: string, i: nat): (r: string)
    ensures |r| <= |full| && r == full[..|r|]
    ensures i <= |full| ==> |r| == i
    ensures i > |full| ==> r == full
  {
    if i <= |full| then full[..i] else full
  }

  /** One interval callback: show the first `i` characters, count up, and
      clear the interval once the counter passes the line's length.  After
      the interval is cleared nothing changes. */
  function Tick(full: string, s: Typing): Typing {
    if !s.running then s
    else Typing(s.i + 1, Slice(full, s.i), s.i + 1 <= |full|)
  }

  /** The state after `k` callbacks. */
  function Ticks(full: string, k: nat): Typing {
    if k == 0 then Start else Tick(full, Ticks(full, k - 1))
  }

  /** What holds at every callback boundary: the text shown is always a
      prefix of the line, one character behind the counter; a running
      timer has not passed the end, and a stopped one has shown the whole
      line. */
  ghost predicate Inv(full: string, s: Typing) {
    && s.i <= |full| + 1
    && |s.text| == (if s.i == 0 then 0 else s.i - 1)
    && s.text == full[..|s.text|]
    && (s.running <==> s.i <= |full|)
  }

  /** Every callback keeps the invariant. */
  lemma TickKeepsInv(full: string, s: Typing)
    requires Inv(full, s)
    ensures Inv(full, Tick(full, s))
  {
  }

  /** After `k` callbacks, for `k` up to one past the line's length, the
      counter reads `k` and the first `k - 1` characters are shown: the text
      grows by exactly one character per callback after the first. */
  lemma {:induction false} TicksShowPrefix(full: string, k: nat)
    requires k <= |full| + 1
    ensures Ticks(full, k).i == k
    ensures Ticks(full, k).text == full[..(if k == 0 then 0 else k - 1)]
    ensures Ticks(full, k).running <==> k <= |full|
  {
    if k > 0 {
      TicksShowPrefix(full, k - 1);
    }
  }

  /** Once the timer has stopped, after `|full| + 1` callbacks, the whole
      line is shown and further callbacks change nothing. */
  lemma {:induction false} StopsWithFullText(full: string, k: nat)
    requires k >= |full| + 1
    ensures Ticks(full, k) == Typing(|full| + 1, full, false)
  {
    if k == |full| + 1 {
      TicksShowPrefix(full, k);
      assert full[..|full|] == full;
    } else {
      StopsWithFullText(full, k - 1);
    }
  }

  /** Run the timer until it clears itself.  It fires exactly `|full| + 1`
      times and leaves the whole line on screen. */
  method Animate(full: string) returns (text: string, ticks: nat)
    ensures text == full
    ensures ticks == |full| + 1
  {
    var s := Start;
    ticks := 0;
    while s.running
      invariant Inv(full, s)
      invariant s.i == ticks
      decreases |full| + 1 - s.i
    {
      TickKeepsInv(full, s);
      s := Tick(full, s);
      ticks := ticks + 1;
    }
    assert full[..|full|] == full;
    text := s.text;
  }

  /** The landing page's line takes 29 callbacks to type out. */
  lemma LandingLine()
    ensures |FullText| == 28
    ensures Ticks(FullText, 29).text == FullText
    ensures !Ticks(FullText, 29).running && Ticks(FullText, 28).running
  {
    TicksShowPrefix(FullText, 28);
    StopsWithFullText(FullText, 29);
  }
}
